=== FILE: README.md ===
# PurrBrowser renderer session model

A Dafny model of the session state kept by PurrBrowser's renderer process
(`renderer.js`), with proofs of what the browser promises about it.

The model covers:

- **the tab registry**: the ordered tab list, the active tab and the id counter. This includes tab creation, switching and closing, the neighbour rule that picks the next active tab, and the replacement tab opened when the last one closes. It also includes the per-tab projections: loading flag, title, favicon and its fallback, display URL and `dom-ready` readiness.
- **the navigation gate**: back, forward and reload reach the active webview only after its `dom-ready`. The toolbar buttons follow the same rule.
- **the browse history**: most recent first, deduplicated by URL and capped at 60. Titles are patched in place.
- **the download mirror**: the live items fed by the host's `download-item` snapshots, and the ids the user cancelled. It also covers the shelf's open, show, cancel, remove and clear actions, and the download history of finished downloads, upserted by id and capped at 40.
- **the toolbar helpers**: the search-engine table and setting, the theme setting, how address-bar text becomes a URL, and the security indicator.
- **the session**: one dispatch function applies a user command, a webview event, a download snapshot or a shelf click to the whole state. It returns the navigation commands for the active webview, the shelf's messages to the host, the URL the address bar loads, and the cancellation of a navigation to an internal page. Window-control messages and the loads of the bundled settings and home pages are not among them (see "## Left out").

Modules, one per file:

| module | file |
|---|---|
| `Seqs` | `seqs.dfy`: sequence helpers and `Option` |
| `Storage` | `storage.dfy` |
| `Tabs` | `tabs.dfy` |
| `Navigation` | `navigation.dfy` |
| `BrowseHistory` | `browse_history.dfy` |
| `Downloads` | `downloads.dfy` |
| `Chrome` | `chrome.dfy` |
| `Session` | `session.dfy` |

The model gives the environment's answers as parameters, because it does not interpret them:

- URL parsing. This covers `new URL(u).origin`, the `theme` query parameter, and the `app:`/`browser:`/`firefox:` internal-URL tests.
- `encodeURIComponent`.
- The file-URL prefixes of the bundled settings and home pages.
- `Date.now()`.
- The webview's `canGoBack`/`canGoForward`.

Design notes where the code is more specific than a prose description of it; the model follows the code:

- `switchTab` does not check that the id is listed (renderer.js:894-895). Every caller passes a listed id, and the model keeps that as an explicit guard on the sidebar click and on Ctrl+1..9.
- A download in a terminal state stays in the live map. A later snapshot overwrites its state, so there is no terminal freeze (renderer.js:348-396).
- The set of cancelled ids only empties on "clear downloads". Only cancel adds to it; remove does not, so a later snapshot brings a removed item back.
- The favicon is a string, and `""` stands for `null`. Both are falsy in every use.
- The webview listeners close over their tab's id (renderer.js:823-888). An event whose tab is already closed runs the same code: the tab projections ignore it, a navigation is still recorded with its URL as title, and a new-window request still opens a tab.
- `addHistoryEntry` also rejects internal settings and home URLs (renderer.js:1007), but only `http://` and `https://` URLs reach that test, and the internal schemes are `app:`, `browser:` and `firefox:` (renderer.js:106). The test can never hold, so the model leaves it out.

## Model

| member | source | states |
|---|---|---|
| Storage.StoredOr | renderer.js:46-53 | a stored non-empty string is returned as is; a missing, unreadable or empty value yields the fallback |
| Storage.LoadList | renderer.js:729-737 | a stored array is loaded as stored; a missing, unparsable or non-array value loads as the empty log |
| Storage.SaveList | renderer.js:693-695 | loading what was saved gives back the same log |
| Tabs.FindTab | renderer.js:944-946 | finds the first position holding the id, and finds nothing exactly when no tab has it |
| Tabs.GetTab | renderer.js:944-946 | yields a tab with the asked id taken from the list, or nothing exactly when the id is not listed |
| Tabs.CreateTab | renderer.js:755-781 | appends a fresh tab (New Tab, no favicon, not loading, not ready) under the current counter, makes it active, bumps the counter; keeps the registry valid; the listed ids become the old ones plus the new one |
| Tabs.Init | renderer.js:113-128 | startup leaves one valid tab on the home URL, active |
| Tabs.SwitchTab | renderer.js:894-914 | sets the active id and nothing else; validity is kept when the id is listed |
| Tabs.CloseTab | renderer.js:917-941 | an unknown id changes nothing; closing an inactive tab keeps the active one and the order of the rest; closing the active tab activates its left neighbour, or its right one at position 0; closing the last tab opens a fresh home tab; validity is kept, the closed id disappears, and no closed id comes back |
| Tabs.RemoveKeepsOthers | renderer.js:918-922 | splicing a tab out keeps every other tab, the increasing id order and listing of all other ids |
| Tabs.SameLayoutFacts | renderer.js:959-992 | patching fields of a tab in place keeps validity and every id's position |
| Tabs.Patch | renderer.js:944-946 | changing one listed tab's fields leaves every other tab and the layout unchanged, and an unlisted id changes nothing |
| Tabs.SetLoading | renderer.js:959-966 | only the given tab's loading flag changes, and starting a load clears its favicon; an unlisted id changes nothing |
| Tabs.SetTitle | renderer.js:980-992 | the tab's title becomes the given one, or "Untitled" when empty; nothing else changes |
| Tabs.SetFavicon | renderer.js:1111-1117 | only the given tab's favicon changes |
| Tabs.RequestFallbackFavicon | renderer.js:1145-1157 | a tab without favicon on an http(s) page whose origin parses gets origin + "/favicon.ico"; any other case changes nothing |
| Tabs.NormalizeDisplayUrl | renderer.js:1171-1181 | settings-page file URLs display as app://settings, home-page file URLs as app://home, everything else unchanged, the empty URL included |
| Tabs.SetUrl | renderer.js:1160-1169 | the listed tab's URL becomes the display form of the given URL; nothing else changes |
| Tabs.MarkDomReady | renderer.js:823-826 | the tab becomes ready; nothing else changes |
| Tabs.Apply | renderer.js:1299-1346 | every user tab command keeps the registry valid, never lowers the counter and never relists a closed id |
| Tabs.Run | renderer.js:1299-1346 | the same three facts for any sequence of tab commands |
| Tabs.SessionAlwaysHasOneActiveTab | renderer.js:917-941 | from startup, any commands leave a non-empty list with exactly one tab carrying the active id |
| Navigation.ActiveWebview | renderer.js:949-952 | the active tab's webview, present whenever the registry is valid |
| Navigation.NavigateBack | renderer.js:1244-1249 | goes back exactly when the active webview is ready and can go back |
| Navigation.NavigateForward | renderer.js:1251-1256 | goes forward exactly when the active webview is ready and can go forward |
| Navigation.ReloadPage | renderer.js:1258-1263 | reloads exactly when the active webview is ready |
| Navigation.NavigationButtons | renderer.js:1270-1282 | both buttons are disabled before dom-ready; a button is enabled exactly when pressing it sends its command |
| Navigation.FreshTabIgnoresNavigation | renderer.js:755-781 | right after a tab is created every navigation command is ignored and both buttons are disabled |
| Navigation.ReadyActiveTabNavigates | renderer.js:823-826 | after the active tab's dom-ready, reload goes through and back/forward go through exactly when possible |
| Navigation.ReadinessFollowsDomReady | renderer.js:954-956 | `isWebviewReady` of the active webview holds exactly when the active tab has seen its dom-ready; a new tab is not ready, and its dom-ready makes it ready |
| Navigation.ReadinessIsSticky | renderer.js:954-956 | the loading, title, favicon and dom-ready updates never reset any tab's readiness |
| Navigation.NavigatingKeepsReadiness | renderer.js:954-956 | the URL update and the fallback favicon never reset any tab's readiness |
| BrowseHistory.WithoutUrl | renderer.js:1012 | removes every entry of the URL and keeps every other entry in order |
| BrowseHistory.WithoutUrlKeepsCopies | renderer.js:1012 | every entry with another URL keeps its number of copies, so a log holding an entry twice still holds it twice after the filter |
| BrowseHistory.Record | renderer.js:1012-1014 | the new entry is first and its URL occurs once; behind it come the newest of the other entries in their old order, cut to 60 in all; nothing else is lost below the cap; URLs stay unique |
| BrowseHistory.AddHistoryEntry | renderer.js:1005-1020 | non-web URLs are not recorded; a web URL is recorded first with the tab's title, or the URL when the tab is gone or untitled, followed by the newest other entries in order (the log grows by one, or stays at 60), nothing else lost below the cap, URLs unique if they were |
| BrowseHistory.UpdateHistoryTitle | renderer.js:1022-1033 | only the first entry of the tab's URL may change, only its title, and only to a non-empty title, which does land there |
| BrowseHistory.LoadBrowseHistory | renderer.js:994-999 | a stored array is the history, anything else the empty history |
| BrowseHistory.RevisitMovesToFront | renderer.js:1012-1014 | revisiting a URL recorded anywhere in the log moves it to the front without adding an entry |
| BrowseHistory.FirstVisitGrowsLog | renderer.js:1012-1014 | a first visit below the cap puts the new entry in front of the whole old log |
| BrowseHistory.WithoutRecordedUrl | renderer.js:1012 | filtering a URL recorded once drops exactly one entry |
| BrowseHistory.WithoutUrlOfTail | renderer.js:1012 | filtering a URL held only at the front drops exactly that entry |
| Downloads.IdIndex | renderer.js:670 | the first history position holding the id, or none when no entry has it |
| Downloads.Archive | renderer.js:667-680 | a known id is replaced where it stands, a new one goes in front; at most 40 entries; the item is present; ids stay unique |
| Downloads.Merge | renderer.js:365-388 | the live item takes every field of the snapshot, except that a missing total keeps the known one |
| Downloads.UpdateDownloadItem | renderer.js:348-396 | snapshots for cancelled ids are ignored; otherwise the live item is upserted, others untouched, and exactly the completed or failed items are archived; history ids stay unique |
| Downloads.ShelfClick | renderer.js:296-345 | clear empties live items, cancelled ids and history; cancel forgets the item, remembers its id and asks the host to cancel; remove only forgets the item; open and show forward the saved path; unknown ids do nothing |
| Downloads.LoadDownloadHistory | renderer.js:682-691 | a stored array is the history, anything else the empty history |
| Downloads.CancelSilencesLaterSnapshots | renderer.js:328-335 | after a cancel every later snapshot for the id is dropped |
| Downloads.RemoveThenSnapshotRecreates | renderer.js:337-344 | after a remove the next snapshot for the id brings the item back |
| Downloads.CancelAfterCompletionKeepsHistory | renderer.js:328-335 | cancelling a completed download leaves its history entry in place |
| Downloads.ArchiveIdempotent | renderer.js:667-680 | archiving the same item twice is archiving it once |
| Downloads.DuplicateSnapshotIsIdempotent | renderer.js:348-396 | a repeated snapshot changes nothing further |
| Downloads.ProgressPercent | renderer.js:624-626 | the percentage is received/total rounded half up, capped at 100, and 0 when the total is unknown |
| Downloads.PercentMonotone | renderer.js:624-626 | more received bytes never show a smaller percentage |
| Downloads.ShelfFollowsSnapshots | renderer.js:613-657 | a completed snapshot shows Done with a full bar; while a download with a known total runs, its bar never shrinks and its status shows that percentage |
| Downloads.RenderDownloadItem | renderer.js:613-657 | each state shows its own status; completed fills the bar; open/show appear once the download stops progressing; a running item shows a percentage exactly when the total is known and a speed exactly when it is positive |
| Chrome.EngineOf | renderer.js:7-44 | an engine exists exactly for the six keys duckduckgo, google, bing, yahoo, brave and ecosia, and each searches over https |
| Chrome.SetSearchEngine | renderer.js:1184-1190 | a known key is taken, an unknown one ignored |
| Chrome.StartupEngineAsWritten | renderer.js:64 | a stored non-empty key is used unchecked; no key, or an empty one, gives duckduckgo through `safeGetStorage` (renderer.js:49) |
| Chrome.UnknownStoredEngineBreaksStartup | renderer.js:1192-1199 | a stored key naming no engine finds no engine at startup |
| Chrome.StartupEngine | renderer.js:64 | the startup key is always a known engine: the stored one when known, duckduckgo otherwise |
| Chrome.ValidTheme | renderer.js:463-467 | the theme is a known one: the given one when known, midnight otherwise |
| Chrome.ClassifyAddress | renderer.js:1231-1239 | text without a dot, localhost or leading "http" is a search; other text without an http(s) scheme gets https |
| Chrome.ResolveAddress | renderer.js:1231-1239 | a search goes to the engine's search URL with the encoded text, a bare host gets https://, a URL stays |
| Chrome.ResolvedAddressIsWebUrl | renderer.js:1219-1242 | whatever is typed, a known engine makes the address bar load an http(s) URL |
| Chrome.SecurityIndicator | renderer.js:1285-1296 | secure exactly for https; the browser icon exactly for internal and app:// pages; not secure otherwise |
| Chrome.InternalPagesShowBrowserIcon | renderer.js:1171-1181 | a tab showing the bundled settings or home page shows the browser icon |
| Chrome.PlainHttpIsNotSecure | renderer.js:1285-1296 | a plain http page is flagged not secure |
| Session.Init | renderer.js:113-128 | startup gives one home tab, the stored engine key when known and duckduckgo otherwise (nothing stored, an empty value, or an unknown key), the stored theme or midnight, an empty live map, and each stored log when it is an array or the empty log otherwise |
| Session.UpdateTabUrl | renderer.js:1160-1181 | only the tab's URL changes; a settings-page URL with a known theme parameter sets the theme to it, and any other URL leaves the theme alone |
| Session.OpenSettingsPage | renderer.js:559-580 | without a webview nothing changes; otherwise only the active tab changes, and it shows app://settings; the theme is kept |
| Session.OpenHomePage | renderer.js:582-589 | without a webview nothing changes; otherwise only the active tab changes, and it shows app://home; the theme is kept |
| Session.HandleInternalNavigation | renderer.js:539-557 | the URL is handled exactly when it is an internal settings or home URL, and otherwise nothing changes; a settings URL adopts a known theme parameter and shows app://settings in the active tab; a home URL shows app://home and keeps the theme |
| Session.AddKeepsWebOnly | renderer.js:1005-1014 | recording a visit never puts a non-web URL into the browse history |
| Session.WebviewStep | renderer.js:823-888 | webview events keep the session invariant and the logs' caps, and never touch downloads or the engine |
| Session.NavigateToUrl | renderer.js:1219-1242 | empty text or no webview does nothing; an internal settings or home URL loads nothing and opens that page in the active tab, as `handleInternalNavigation` does; anything else loads the resolved http(s) URL |
| Session.Step | renderer.js:131-287 | every event keeps the invariant, the caps and the logs' uniqueness; download events touch only downloads and other events never do; navigation commands reach only a ready webview |
| Session.Run | renderer.js:131-287 | the invariant, the caps and the logs' uniqueness hold after any sequence of events |
| Session.StartupThenAnyEventsKeepsInvariant | renderer.js:113-128 | from startup, any events leave a non-empty tab list with a listed active tab and a known engine key |
| Session.LogsStayCappedAndWebOnly | renderer.js:1005-1014 | starting from a `Tidy` session (logs within their caps, web-only and free of duplicates), both logs stay so after any events, and no app:// address is ever recorded in the browse history |

## Left out

- `main.js`: window creation, the User-Agent rewrite of outgoing requests and the `new-tab`/`close-tab` IPC echo handlers (main.js:1-63) carry no session state. Download snapshots come from the host and are inputs here.
- The DOM: tab and download elements, animations, the visibility of the shelf, menu and dropdowns, the history dropdown's filtering, and the address bar's text and select-all.
- `formatSpeed` and the shelf's badge: presentation only.
- URL parsing, `encodeURIComponent` and the bundled pages' file URLs are parameters (see above). The two prefixes are treated as computed once, rather than lazily on first use.
- `webview.src` assignments for the settings and home pages: their URL construction is left out. The model records only the tab's display URL. The shortcut that skips reloading an already open settings page with the same theme is left out for the same reason.
- `did-fail-load` only logs and changes no state. Focus handling only closes menus.
- Storage.SaveList: the writes of the logs, the theme and the engine key on every change (renderer.js:305, 465, 678, 1015, 1028, 1187) are not modelled. The session holds no stored values, and `SaveList` states only the round trip of a write that succeeds. A failed write, which `safeSetStorage` (renderer.js:55-61) swallows while the old value stays, is not modelled either.
- Chrome.EngineOf: keys inherited by a JavaScript object, such as `"constructor"`, make `SEARCH_ENGINES[key]` truthy in the source but name no engine here. Keys come from the dropdown's fixed options, so this only matters for a hand-edited stored key.
- The window-control messages of the title-bar buttons (renderer.js:250-256) are not among the session's outgoing commands.
- Session.OpenSettingsPage: its theme and display-address clauses are stated for `file://` page prefixes, which is what `pathToFileURL` produces (renderer.js:481-505); other prefixes are left open.
- Session.OpenHomePage: the same `file://` prefix condition as for the settings page.
- Session.HandleInternalNavigation: the same `file://` prefix condition for the theme and the active tab's address.
- Downloads.ProgressPercent: computed on exact rationals with ties rounded up. The source uses floating point, whose `received / total * 100` may round differently exactly at a half.
- Downloads.Download: the id is a string, byte counts and speed are naturals, and a field the snapshot leaves out is 0. The source's `||` fallbacks treat a missing number and 0 alike.
- Session.NavigateToUrl: the address text is taken already trimmed. JavaScript's `trim` whitespace set is not modelled.
- Session.Init: applies the corrected startup engine (see Findings).

## Findings

| source | as written | input that shows it | evidently intended | confidence | as-written member | corrected member |
|---|---|---|---|---|---|---|
| renderer.js:64, 1192-1199 | the stored `searchEngine` key is used unchecked, and `init` immediately reads `SEARCH_ENGINES[key].iconPath` | stored key `"startpage"`: the lookup is `undefined`, `init` throws before the first tab exists | fall back to `duckduckgo` for an unknown key, as `getHomePageUrl` already does (renderer.js:498) | not executed | Chrome.StartupEngineAsWritten, Chrome.UnknownStoredEngineBreaksStartup | Chrome.StartupEngine |

=== FILE: browse_history.dfy ===
/** The browse history (renderer.js `browseHistory`): a most-recent-first log
    of visited web pages, deduplicated by URL and capped at 60 entries, whose
    titles are patched in place as pages report them. */
module BrowseHistory {

  import opened Seqs
  import opened Storage
  import opened Tabs

  /** `BROWSE_HISTORY_LIMIT` (renderer.js:101). */
  const Limit: nat := 60

  datatype Entry = Entry(url: string, title: string, timestamp: int)

  predicate UniqueUrls(h: seq<Entry>) {
    forall i, j :: 0 <= i < j < |h| ==> h[i].url != h[j].url
  }

  /** `h.filter(entry => entry.url !== url)`. */
  function WithoutUrl(h: seq<Entry>, url: string): (r: seq<Entry>)
    ensures forall i :: 0 <= i < |r| ==> r[i].url != url
    ensures forall e :: e in h && e.url != url ==> e in r
    ensures IsSubseq(r, h)
    ensures UniqueUrls(h) ==> UniqueUrls(r)
    decreases |h|
  {
    if |h| == 0 then []
    else
      var rest := WithoutUrl(h[1..], url);
      TailSubseq(rest, h);
      SubseqMembers(rest, h[1..]);
      if h[0].url == url then rest
      else
        assert forall e :: e in h ==> e == h[0] || e in h[1..];
        assert UniqueUrls(h) ==> forall e :: e in rest ==> e.url != h[0].url;
        [h[0]] + rest
  }

  /** The filter keeps every copy of every entry with another URL, so a log
      that holds an entry twice still holds it twice. */
  lemma {:induction false} WithoutUrlKeepsCopies(h: seq<Entry>, url: string)
    ensures forall e: Entry :: e.url != url ==> multiset(WithoutUrl(h, url))[e] == multiset(h)[e]
    decreases |h|
  {
    if |h| > 0 {
      WithoutUrlKeepsCopies(h[1..], url);
      CopiesOfOthers(h, WithoutUrl(h[1..], url), url);
    }
  }

  /** One filter step keeps the copy count of every entry with another URL. */
  lemma CopiesOfOthers(h: seq<Entry>, rest: seq<Entry>, url: string)
    requires |h| > 0
    requires forall e: Entry :: e.url != url ==> multiset(rest)[e] == multiset(h[1..])[e]
    ensures forall e: Entry :: e.url != url ==>
      multiset(if h[0].url == url then rest else [h[0]] + rest)[e] == multiset(h)[e]
  {
    assert h == [h[0]] + h[1..];
  }

  /** The list operation of `addHistoryEntry` (renderer.js:1012-1014): drop any
      older copy of the URL, put the new entry in front, keep the first 60. */
  function Record(h: seq<Entry>, url: string, title: string, now: int): (r: seq<Entry>)
    ensures |r| > 0 && r[0] == Entry(url, title, now)
    ensures |r| <= Limit
    // the URL occurs exactly once, at the front
    ensures forall i :: 1 <= i < |r| ==> r[i].url != url
    // behind it come the newest of the other entries, in their old order
    ensures |r| == if |WithoutUrl(h, url)| < Limit then |WithoutUrl(h, url)| + 1 else Limit
    ensures r[1..] == WithoutUrl(h, url)[..|r| - 1]
    ensures IsSubseq(r[1..], h)
    // when the cap does not bite, no other entry is lost
    ensures |r| < Limit ==> forall e :: e in h && e.url != url ==> e in r
    ensures UniqueUrls(h) ==> UniqueUrls(r)
  {
    var kept := WithoutUrl(h, url);
    var n := if |kept| < Limit then |kept| else Limit - 1;
    var r := [Entry(url, title, now)] + kept[..n];
    assert r[1..] == kept[..n];
    SubseqPrefix(kept, h, n);
    assert n == |kept| ==> kept[..n] == kept;
    r
  }

  /** `addHistoryEntry(tabId, url)` (renderer.js:1005-1020); `now` is
      `Date.now()`. Only `http://` and `https://` URLs are recorded. The
      internal-page tests of line 1007 cannot hold for such a URL, because
      the internal schemes are `app:`, `browser:` and `firefox:`
      (renderer.js:106), so they add no case. The entry's title is the tab's
      title, or the URL when the tab is gone or untitled. */
  function AddHistoryEntry(h: seq<Entry>, r: Registry, tabId: TabId, url: string, now: int)
    : (h': seq<Entry>)
    ensures !IsWebUrl(url) ==> h' == h
    ensures IsWebUrl(url) ==>
      && |h'| > 0 && |h'| <= Limit
      && |h'| == (if |WithoutUrl(h, url)| < Limit then |WithoutUrl(h, url)| + 1 else Limit)
      && h'[0].url == url && h'[0].timestamp == now
      && (forall i :: 1 <= i < |h'| ==> h'[i].url != url)
      && |h'| - 1 <= |WithoutUrl(h, url)|
      && h'[1..] == WithoutUrl(h, url)[..|h'| - 1]
      && IsSubseq(h'[1..], h)
      && (|h'| < Limit ==> forall e :: e in h && e.url != url ==> e in h')
      && (GetTab(r, tabId).Some? && GetTab(r, tabId).value.title != "" ==> h'[0].title == GetTab(r, tabId).value.title)
      && (GetTab(r, tabId).None? || GetTab(r, tabId).value.title == "" ==> h'[0].title == url)
    ensures UniqueUrls(h) ==> UniqueUrls(h')
  {
    if !IsWebUrl(url) then h
    else
      var tab := GetTab(r, tabId);
      var title := if tab.Some? && tab.value.title != "" then tab.value.title else url;
      Record(h, url, title, now)
  }

  /** `updateHistoryTitle(tabId, title)` (renderer.js:1022-1027): patches the
      title of the first entry recorded for the tab's current URL. */
  function UpdateHistoryTitle(h: seq<Entry>, r: Registry, tabId: TabId, title: string): (h': seq<Entry>)
    ensures |h'| == |h|
    ensures forall i :: 0 <= i < |h| ==> h'[i].url == h[i].url && h'[i].timestamp == h[i].timestamp
    // no tab, no URL, or URL not recorded: nothing changes
    ensures GetTab(r, tabId).None? || GetTab(r, tabId).value.url == "" ==> h' == h
    ensures GetTab(r, tabId).Some? && (forall i :: 0 <= i < |h| ==> h[i].url != GetTab(r, tabId).value.url) ==> h' == h
    // only the first entry for the tab's URL may change, and only its title
    ensures forall i :: 0 <= i < |h| && h'[i] != h[i] ==>
      && GetTab(r, tabId).Some? && h[i].url == GetTab(r, tabId).value.url
      && (forall j :: 0 <= j < i ==> h[j].url != h[i].url)
      && title != "" && h'[i].title == title
    // a non-empty title does land on that entry
    ensures title != "" && GetTab(r, tabId).Some? && GetTab(r, tabId).value.url != "" ==>
      forall i :: 0 <= i < |h| && h[i].url == GetTab(r, tabId).value.url && (forall j :: 0 <= j < i ==> h[j].url != h[i].url) ==>
        h'[i].title == title
  {
    var tab := GetTab(r, tabId);
    if tab.None? || tab.value.url == "" then h
    else match IndexWhere(h, (e: Entry) => e.url == tab.value.url)
      case None => h
      case Some(k) =>
        h[k := h[k].(title := if title != "" then title else h[k].title)]
  }

  /** `loadBrowseHistory` (renderer.js:994-999). */
  function LoadBrowseHistory(stored: Stored<Entry>): (h: seq<Entry>)
    ensures stored.List? ==> h == stored.items
    ensures !stored.List? ==> h == []
  {
    LoadList(stored)
  }

  /** Revisiting a URL recorded anywhere in a log within the cap moves it to
      the front: the length stays, and the URL is still recorded once. */
  lemma {:induction false} RevisitMovesToFront(h: seq<Entry>, url: string, title: string, now: int, k: nat)
    requires UniqueUrls(h) && |h| <= Limit
    requires k < |h| && h[k].url == url
    ensures var r := Record(h, url, title, now);
      && |r| == |h|
      && r[0] == Entry(url, title, now)
      && UniqueUrls(r)
  {
    WithoutRecordedUrl(h, url, k);
  }

  /** A first visit below the cap adds exactly one entry. */
  lemma {:induction false} FirstVisitGrowsLog(h: seq<Entry>, url: string, title: string, now: int)
    requires |h| < Limit
    requires forall i :: 0 <= i < |h| ==> h[i].url != url
    ensures Record(h, url, title, now) == [Entry(url, title, now)] + h
  {
    WithoutUrlKeepsAll(h, url);
  }

  /** Filtering a URL that a log with unique URLs holds once drops one entry. */
  lemma {:induction false} WithoutRecordedUrl(h: seq<Entry>, url: string, k: nat)
    requires UniqueUrls(h)
    requires k < |h| && h[k].url == url
    ensures |WithoutUrl(h, url)| == |h| - 1
    decreases |h|
  {
    if k == 0 {
      WithoutUrlOfTail(h, url);
    } else {
      assert h[0].url != url;
      assert h[1..][k - 1] == h[k];
      WithoutRecordedUrl(h[1..], url, k - 1);
      assert WithoutUrl(h, url) == [h[0]] + WithoutUrl(h[1..], url);
    }
  }

  /** Dropping the URL from a log whose only copy of it is at the front
      drops exactly that entry. */
  lemma {:induction false} WithoutUrlOfTail(h: seq<Entry>, url: string)
    requires |h| > 0 && h[0].url == url
    requires forall i :: 1 <= i < |h| ==> h[i].url != url
    ensures WithoutUrl(h, url) == h[1..]
  {
    WithoutUrlKeepsAll(h[1..], url);
  }

  lemma {:induction false} WithoutUrlKeepsAll(h: seq<Entry>, url: string)
    requires forall i :: 0 <= i < |h| ==> h[i].url != url
    ensures WithoutUrl(h, url) == h
    decreases |h|
  {
    if |h| > 0 {
      WithoutUrlKeepsAll(h[1..], url);
      assert h[0].url != url;
      assert WithoutUrl(h, url) == [h[0]] + WithoutUrl(h[1..], url);
      assert h == [h[0]] + h[1..];
    }
  }
}

=== FILE: chrome.dfy ===
/** The pure helpers around the toolbar: the search-engine table and the
    engine setting, the theme setting, what the address bar turns typed text
    into, and the security indicator. */
module Chrome {

  import opened Seqs
  import opened Storage
  import opened Tabs

  /** One row of `SEARCH_ENGINES` (renderer.js:7-44); icons are left out. */
  datatype Engine = Engine(name: string, searchUrl: string, homeUrl: string)

  const DefaultEngineKey: string := "duckduckgo"
  const DefaultTheme: string := "midnight"

  /** `THEMES` (renderer.js:104). */
  const Themes: seq<string> := ["midnight", "light", "dusk", "forest", "sunset", "aurora", "graphite", "ocean"]

  /** The keys of `SEARCH_ENGINES`, in declaration order. */
  const EngineKeys: seq<string> := ["duckduckgo", "google", "bing", "yahoo", "brave", "ecosia"]

  /** `SEARCH_ENGINES[key]`, `None` for `undefined`. */
  function EngineOf(key: string): (e: Option<Engine>)
    ensures e.Some? <==> key in EngineKeys
    ensures e.Some? ==> StartsWith(e.value.searchUrl, "https://")
    ensures key == DefaultEngineKey ==> e.Some?
  {
    match key
    case "duckduckgo" => Some(Engine("DuckDuckGo", "https://duckduckgo.com/?q=", "https://duckduckgo.com"))
    case "google" => Some(Engine("Google", "https://www.google.com/search?q=", "https://www.google.com"))
    case "bing" => Some(Engine("Bing", "https://www.bing.com/search?q=", "https://www.bing.com"))
    case "yahoo" => Some(Engine("Yahoo", "https://search.yahoo.com/search?p=", "https://www.yahoo.com"))
    case "brave" => Some(Engine("Brave", "https://search.brave.com/search?q=", "https://search.brave.com"))
    case "ecosia" => Some(Engine("Ecosia", "https://www.ecosia.org/search?q=", "https://www.ecosia.org"))
    case _ => None
  }

  predicate IsEngineKey(key: string) {
    EngineOf(key).Some?
  }

  /** `setSearchEngine(key)` (renderer.js:1184-1190): an unknown key is
      ignored. */
  function SetSearchEngine(current: string, key: string): (next: string)
    ensures IsEngineKey(key) ==> next == key
    ensures !IsEngineKey(key) ==> next == current
    ensures IsEngineKey(current) ==> IsEngineKey(next)
  {
    if IsEngineKey(key) then key else current
  }

  /** The engine key as read at startup, as written (renderer.js:64): the
      stored string is taken unchecked. */
  function StartupEngineAsWritten(stored: Option<string>): (key: string)
    ensures stored.Some? && stored.value != "" ==> key == stored.value
    ensures stored.None? || stored.value == "" ==> key == DefaultEngineKey
  {
    StoredOr(stored, DefaultEngineKey)
  }

  /** `init` first runs `updateSearchEngineUI` (renderer.js:1192-1199), which
      reads `SEARCH_ENGINES[currentSearchEngine].iconPath`: a stored key that
      names no engine makes that lookup `undefined` and `init` throws before
      the first tab exists. */
  lemma UnknownStoredEngineBreaksStartup()
    ensures EngineOf(StartupEngineAsWritten(Some("startpage"))).None?
  {
  }

  /** The engine key as read at startup, corrected: an unknown stored key
      falls back to the default, as `getHomePageUrl` already does
      (renderer.js:498). */
  function StartupEngine(stored: Option<string>): (key: string)
    ensures IsEngineKey(key)
    ensures stored.Some? && IsEngineKey(stored.value) ==> key == stored.value
    ensures !(stored.Some? && IsEngineKey(stored.value)) ==> key == DefaultEngineKey
  {
    var key := StoredOr(stored, DefaultEngineKey);
    if IsEngineKey(key) then key else DefaultEngineKey
  }

  /** `THEMES.includes(theme) ? theme : 'midnight'` (renderer.js:454, 464). */
  function ValidTheme(theme: string): (t: string)
    ensures t in Themes
    ensures theme in Themes ==> t == theme
    ensures theme !in Themes ==> t == DefaultTheme
  {
    if theme in Themes then theme else DefaultTheme
  }

  /** How `navigateToUrl` treats typed text (renderer.js:1231-1239). */
  datatype AddressKind = Search | AddScheme | AsIs

  /** The text is a search unless it has a dot, mentions `localhost` or
      starts with `http`; a non-search without an `http://`/`https://`
      scheme gets `https://`. */
  function ClassifyAddress(text: string): (k: AddressKind)
    ensures k == Search <==> !Includes(text, ".") && !Includes(text, "localhost") && !StartsWith(text, "http")
    ensures k == AsIs ==> IsWebUrl(text)
    ensures k == AddScheme ==> !IsWebUrl(text)
  {
    if !Includes(text, ".") && !Includes(text, "localhost") && !StartsWith(text, "http") then Search
    else if !IsWebUrl(text) then AddScheme
    else AsIs
  }

  /** The URL loaded for the typed text. `encode` is `encodeURIComponent`. */
  function ResolveAddress(text: string, engine: Engine, encode: string -> string): (url: string)
    ensures ClassifyAddress(text) == Search ==> url == engine.searchUrl + encode(text)
    ensures ClassifyAddress(text) == AddScheme ==> url == "https://" + text
    ensures ClassifyAddress(text) == AsIs ==> url == text
  {
    match ClassifyAddress(text)
    case Search => engine.searchUrl + encode(text)
    case AddScheme => "https://" + text
    case AsIs => text
  }

  lemma PrefixOfConcat(a: string, b: string)
    ensures StartsWith(a + b, a)
  {
    assert (a + b)[..|a|] == a;
  }

  /** Whatever is typed, with a known engine the address bar loads an
      `http://` or `https://` URL, so the visit is eligible for the browse
      history. */
  lemma ResolvedAddressIsWebUrl(text: string, key: string, encode: string -> string)
    requires IsEngineKey(key)
    ensures IsWebUrl(ResolveAddress(text, EngineOf(key).value, encode))
  {
    var e := EngineOf(key).value;
    match ClassifyAddress(text)
    case Search =>
      PrefixOfConcat(e.searchUrl, encode(text));
      var url := e.searchUrl + encode(text);
      assert url[..8] == e.searchUrl[..8];
    case AddScheme =>
      PrefixOfConcat("https://", text);
    case AsIs =>
  }

  /** The three looks of the security icon (renderer.js:1285-1295). */
  datatype Security = Secure | BrowserPage | NotSecure

  /** `updateSecurityIcon(url)`; the two internal-URL tests need URL parsing
      and are given as their answers. */
  function SecurityIndicator(url: string, isInternalSettings: bool, isInternalHome: bool): (s: Security)
    ensures s == Secure <==> StartsWith(url, "https://")
    ensures s == BrowserPage <==>
      !StartsWith(url, "https://") && (isInternalSettings || isInternalHome || StartsWith(url, "app://"))
  {
    if StartsWith(url, "https://") then Secure
    else if isInternalSettings || isInternalHome || StartsWith(url, "app://") then BrowserPage
    else NotSecure
  }

  /** A tab showing the bundled settings or home page displays an `app://`
      address, so its icon reads "Browser settings", whatever the internal
      tests answer. */
  lemma InternalPagesShowBrowserIcon(url: string, settingsPrefix: string, homePrefix: string, s: bool, h: bool)
    requires (settingsPrefix != "" && StartsWith(url, settingsPrefix)) || (homePrefix != "" && StartsWith(url, homePrefix))
    ensures SecurityIndicator(NormalizeDisplayUrl(url, settingsPrefix, homePrefix), s, h) == BrowserPage
  {
    var d := NormalizeDisplayUrl(url, settingsPrefix, homePrefix);
    assert d == SettingsDisplayUrl || d == HomeDisplayUrl;
    assert d[..6] == "app://";
    assert d[0] != "https://"[0];
  }

  /** A plain `http://` page that is not internal is flagged not secure. */
  lemma PlainHttpIsNotSecure(url: string)
    requires StartsWith(url, "http://")
    ensures SecurityIndicator(url, false, false) == NotSecure
  {
    assert url[..7] == "http://";
    assert url[4] != "https://"[4];
  }
}

=== FILE: downloads.dfy ===
/** The renderer's mirror of the host's downloads: the live map fed by
    `download-item` snapshots, the set of ids the user cancelled, the shelf's
    button actions, and the download history of finished downloads, upserted
    by id and capped at 40 entries. */
module Downloads {

  import opened Seqs
  import opened Storage

  /** `DOWNLOAD_HISTORY_LIMIT` (renderer.js:98). */
  const HistoryLimit: nat := 40

  datatype DownloadState = Progress | Interrupted | Completed | Cancelled | Failed

  /** One download, in the shape of both the host's snapshot and the
      renderer's live item. A number the snapshot leaves out reads as 0,
      which every use treats like a missing one. */
  datatype Download = Download(
    id: string,
    filename: string,
    receivedBytes: nat,
    totalBytes: nat,
    state: DownloadState,
    savePath: string,
    speedBps: nat)

  /** `downloadsById`, `dismissedDownloadIds` and `downloadHistory`. */
  datatype Mirror = Mirror(live: map<string, Download>, dismissed: set<string>, history: seq<Download>)

  /** Outbound IPC messages of the shelf. */
  datatype HostCommand = OpenFile(path: string) | ShowInFolder(path: string) | CancelTransfer(id: string)

  /** Each live item is stored under its own id. */
  predicate KeysMatch(m: Mirror) {
    forall k :: k in m.live ==> m.live[k].id == k
  }

  predicate UniqueIds(h: seq<Download>) {
    forall i, j :: 0 <= i < j < |h| ==> h[i].id != h[j].id
  }

  /** Only these two states are copied into the history (renderer.js:393). */
  predicate IsArchived(s: DownloadState) {
    s == Completed || s == Failed
  }

  /** `downloadHistory.findIndex(entry => entry.id === id)`. */
  function IdIndex(h: seq<Download>, id: string): (k: Option<nat>)
    ensures k.Some? ==> k.value < |h| && h[k.value].id == id
    ensures k.Some? ==> forall j :: 0 <= j < k.value ==> h[j].id != id
    ensures k.None? ==> forall j :: 0 <= j < |h| ==> h[j].id != id
  {
    IndexWhere(h, (d: Download) => d.id == id)
  }

  /** `archiveDownload(item)` (renderer.js:667-680): replace the entry with the
      same id in place, or put the item in front; then keep the first 40. */
  function Archive(h: seq<Download>, item: Download): (h': seq<Download>)
    ensures |h'| <= HistoryLimit
    // an id already present is updated where it stands
    ensures IdIndex(h, item.id).Some? && |h| <= HistoryLimit ==>
      && |h'| == |h|
      && h'[IdIndex(h, item.id).value] == item
      && forall j :: 0 <= j < |h| && j != IdIndex(h, item.id).value ==> h'[j] == h[j]
    // a new id goes in front of the older entries, the oldest falling off
    ensures IdIndex(h, item.id).None? ==>
      && |h'| == (if |h| < HistoryLimit then |h| + 1 else HistoryLimit)
      && h'[0] == item && h'[1..] == h[..|h'| - 1]
    ensures |h| <= HistoryLimit ==> item in h'
    ensures UniqueIds(h) ==> UniqueIds(h')
  {
    match IdIndex(h, item.id)
    case Some(k) => Take(h[k := item], HistoryLimit)
    case None =>
      var h' := Take([item] + h, HistoryLimit);
      assert h'[1..] == h[..|h'| - 1];
      h'
  }

  /** The live item after a snapshot (renderer.js:365-388): created on first
      sight, then every field is overwritten by the snapshot's, except that a
      missing total keeps the previous one. */
  function Merge(live: map<string, Download>, snap: Download): (d: Download)
    ensures d.filename == snap.filename && d.receivedBytes == snap.receivedBytes
    ensures d.state == snap.state && d.savePath == snap.savePath && d.speedBps == snap.speedBps
    ensures snap.totalBytes != 0 ==> d.totalBytes == snap.totalBytes
    ensures snap.totalBytes == 0 && snap.id in live ==> d.totalBytes == live[snap.id].totalBytes
    ensures snap.totalBytes == 0 && snap.id !in live ==> d.totalBytes == 0
    ensures d.id == (if snap.id in live then live[snap.id].id else snap.id)
  {
    var item := if snap.id in live then live[snap.id]
                else Download(snap.id, snap.filename, 0, snap.totalBytes, snap.state, snap.savePath, snap.speedBps);
    item.(filename := snap.filename,
          receivedBytes := snap.receivedBytes,
          totalBytes := if snap.totalBytes != 0 then snap.totalBytes else item.totalBytes,
          state := snap.state,
          savePath := snap.savePath,
          speedBps := snap.speedBps)
  }

  /** `updateDownloadItem(payload)` (renderer.js:348-396). A later snapshot
      overwrites the state whatever it was; there is no terminal freeze. */
  function UpdateDownloadItem(m: Mirror, snap: Download): (m': Mirror)
    // a dismissed id is ignored
    ensures snap.id in m.dismissed ==> m' == m
    ensures snap.id !in m.dismissed ==>
      && m'.live.Keys == m.live.Keys + {snap.id}
      && m'.live[snap.id] == Merge(m.live, snap)
      && (forall k :: k in m.live && k != snap.id ==> m'.live[k] == m.live[k])
      && m'.dismissed == m.dismissed
      && (IsArchived(snap.state) ==> m'.history == Archive(m.history, m'.live[snap.id]))
      && (!IsArchived(snap.state) ==> m'.history == m.history)
    ensures KeysMatch(m) ==> KeysMatch(m')
    ensures |m'.history| <= HistoryLimit || m'.history == m.history
    ensures UniqueIds(m.history) ==> UniqueIds(m'.history)
  {
    if snap.id in m.dismissed then m
    else
      var item := Merge(m.live, snap);
      var history := if IsArchived(snap.state) then Archive(m.history, item) else m.history;
      Mirror(m.live[snap.id := item], m.dismissed, history)
  }

  datatype ShelfAction =
    | ClearDownloads
    | OpenDownload(id: string)
    | ShowDownload(id: string)
    | CancelDownload(id: string)
    | RemoveDownload(id: string)

  datatype ShelfResult = ShelfResult(mirror: Mirror, command: Option<HostCommand>)

  /** The shelf's click handler (renderer.js:296-345). Actions on an id with no
      live item do nothing. */
  function ShelfClick(m: Mirror, a: ShelfAction): (r: ShelfResult)
    // clear empties all three collections
    ensures a.ClearDownloads? ==> r.mirror == Mirror(map[], {}, []) && r.command.None?
    ensures !a.ClearDownloads? && a.id !in m.live ==> r == ShelfResult(m, None)
    ensures !a.ClearDownloads? ==> r.mirror.history == m.history
    // cancel dismisses the id, forgets the item and asks the host to cancel
    ensures a.CancelDownload? && a.id in m.live ==>
      && r.mirror.live == m.live - {a.id}
      && r.mirror.dismissed == m.dismissed + {m.live[a.id].id}
      && r.command == Some(CancelTransfer(m.live[a.id].id))
    // remove only forgets the item
    ensures a.RemoveDownload? ==> r.mirror == m.(live := m.live - {a.id}) && r.command.None?
    // open and show change nothing and forward the saved path
    ensures a.OpenDownload? && a.id in m.live ==> r == ShelfResult(m, Some(OpenFile(m.live[a.id].savePath)))
    ensures a.ShowDownload? && a.id in m.live ==> r == ShelfResult(m, Some(ShowInFolder(m.live[a.id].savePath)))
    ensures KeysMatch(m) ==> KeysMatch(r.mirror)
    ensures UniqueIds(m.history) ==> UniqueIds(r.mirror.history)
  {
    match a
    case ClearDownloads => ShelfResult(Mirror(map[], {}, []), None)
    case OpenDownload(id) =>
      if id !in m.live then ShelfResult(m, None) else ShelfResult(m, Some(OpenFile(m.live[id].savePath)))
    case ShowDownload(id) =>
      if id !in m.live then ShelfResult(m, None) else ShelfResult(m, Some(ShowInFolder(m.live[id].savePath)))
    case CancelDownload(id) =>
      if id !in m.live then ShelfResult(m, None)
      else
        var d := m.live[id];
        ShelfResult(Mirror(m.live - {id}, m.dismissed + {d.id}, m.history), Some(CancelTransfer(d.id)))
    case RemoveDownload(id) =>
      if id !in m.live then ShelfResult(m, None)
      else ShelfResult(m.(live := m.live - {id}), None)
  }

  /** `loadDownloadHistory` (renderer.js:682-691). */
  function LoadDownloadHistory(stored: Stored<Download>): (h: seq<Download>)
    ensures stored.List? ==> h == stored.items
    ensures !stored.List? ==> h == []
  {
    LoadList(stored)
  }

  /** After a cancel, every later snapshot for that id is dropped. */
  lemma CancelSilencesLaterSnapshots(m: Mirror, id: string, snap: Download)
    requires KeysMatch(m) && id in m.live && snap.id == id
    ensures var m' := ShelfClick(m, CancelDownload(id)).mirror;
      && id !in m'.live
      && UpdateDownloadItem(m', snap) == m'
  {
  }

  /** After a remove, the next snapshot for that id brings the item back. */
  lemma RemoveThenSnapshotRecreates(m: Mirror, id: string, snap: Download)
    requires id !in m.dismissed && snap.id == id
    ensures var m' := ShelfClick(m, RemoveDownload(id)).mirror;
      && id !in m'.live
      && id in UpdateDownloadItem(m', snap).live
      && UpdateDownloadItem(m', snap).live[id].state == snap.state
  {
  }

  /** A cancel clicked after the host reported completion leaves the
      completed entry in the history untouched. */
  lemma CancelAfterCompletionKeepsHistory(m: Mirror, snap: Download)
    requires KeysMatch(m) && snap.state == Completed && snap.id !in m.dismissed
    requires |m.history| <= HistoryLimit
    ensures var m1 := UpdateDownloadItem(m, snap);
      var m2 := ShelfClick(m1, CancelDownload(snap.id)).mirror;
      && m2.history == m1.history
      && exists i :: 0 <= i < |m2.history| && m2.history[i].id == snap.id && m2.history[i].state == Completed
  {
    var m1 := UpdateDownloadItem(m, snap);
    var d := m1.live[snap.id];
    assert d in m1.history;
    var i :| 0 <= i < |m1.history| && m1.history[i] == d;
  }

  /** Archiving the same item twice is the same as archiving it once. */
  lemma ArchiveIdempotent(h: seq<Download>, item: Download)
    requires |h| <= HistoryLimit
    ensures Archive(Archive(h, item), item) == Archive(h, item)
  {
    var h1 := Archive(h, item);
    match IdIndex(h, item.id)
    case Some(k) =>
      IndexWhereIs(h1, (d: Download) => d.id == item.id, k);
      assert h1[k := item] == h1;
    case None =>
      IndexWhereIs(h1, (d: Download) => d.id == item.id, 0);
      assert h1[0 := item] == h1;
  }

  /** A duplicate terminal snapshot changes nothing: the history keeps a
      single entry for the id and the live item stays as it was. */
  lemma DuplicateSnapshotIsIdempotent(m: Mirror, snap: Download)
    requires |m.history| <= HistoryLimit
    ensures UpdateDownloadItem(UpdateDownloadItem(m, snap), snap) == UpdateDownloadItem(m, snap)
  {
    if snap.id !in m.dismissed {
      var m1 := UpdateDownloadItem(m, snap);
      assert Merge(m1.live, snap) == m1.live[snap.id];
      if IsArchived(snap.state) {
        ArchiveIdempotent(m.history, m1.live[snap.id]);
      }
      assert m1.live[snap.id := m1.live[snap.id]] == m1.live;
    }
  }

  /** `Math.min(100, Math.round((received / total) * 100))`, or 0 when the
      total is unknown (renderer.js:624-626), on exact rationals. */
  function ProgressPercent(received: nat, total: nat): (p: nat)
    ensures p <= 100
    ensures total == 0 ==> p == 0
    // p is 100 * received / total rounded half up
    ensures 0 < total && received <= total ==> 2 * p * total <= 200 * received + total < 2 * p * total + 2 * total
    ensures 0 < total <= received ==> p == 100
  {
    if total == 0 then 0
    else
      var q := (200 * received + total) / (2 * total);
      DivBounds(200 * received + total, 2 * total);
      if received >= total then
        QuotientAtLeast(200 * received + total, 2 * total, 100);
        100
      else if q < 100 then q else 100
  }

  lemma DivBounds(a: nat, b: nat)
    requires b > 0
    ensures b * (a / b) <= a < b * (a / b) + b
  {
  }

  lemma QuotientAtLeast(a: nat, b: nat, n: nat)
    requires b > 0 && a >= b * n
    ensures a / b >= n
  {
    DivBounds(a, b);
    if a / b < n {
      MulMono(b, a / b + 1, n);
    }
  }

  lemma MulMono(b: nat, x: nat, y: nat)
    requires x <= y
    ensures b * x <= b * y
  {
  }

  /** More bytes never show a smaller percentage. */
  lemma PercentMonotone(r1: nat, r2: nat, total: nat)
    requires r1 <= r2
    ensures ProgressPercent(r1, total) <= ProgressPercent(r2, total)
  {
    if total > 0 && r2 < total {
      var p1, p2 := ProgressPercent(r1, total), ProgressPercent(r2, total);
      RoundedOrder(total, p1, p2, 200 * r1 + total, 200 * r2 + total);
    }
  }

  /** Two values rounded against the same denominator keep their order. */
  lemma RoundedOrder(t: nat, p1: nat, p2: nat, a1: int, a2: int)
    requires t > 0 && a1 <= a2
    requires 2 * p1 * t <= a1 && a2 < 2 * p2 * t + 2 * t
    ensures p1 <= p2
  {
    if p1 > p2 {
      MulMono(2 * t, p2 + 1, p1);
    }
  }

  datatype Status =
    | Done
    | FailedStatus
    | Paused
    | CancelledStatus
    | Downloading(percent: Option<nat>, showsSpeed: bool)

  /** What the shelf shows for a live item: the status line, the bar width in
      percent, and whether Open and Show are offered (Cancel and Clear always
      are). */
  datatype ItemView = ItemView(status: Status, barPercent: nat, fileActionsShown: bool)

  /** `renderDownloadItem` (renderer.js:613-656). */
  function RenderDownloadItem(d: Download): (v: ItemView)
    ensures v.barPercent <= 100
    ensures v.fileActionsShown <==> d.state != Progress
    ensures d.state == Completed <==> v.status == Done
    ensures d.state == Failed <==> v.status == FailedStatus
    ensures d.state == Interrupted <==> v.status == Paused
    ensures d.state == Cancelled <==> v.status == CancelledStatus
    ensures d.state == Completed ==> v.barPercent == 100
    ensures d.state != Completed ==> v.barPercent == ProgressPercent(d.receivedBytes, d.totalBytes)
    ensures v.status.Downloading? ==>
      && (v.status.percent.Some? <==> d.totalBytes > 0)
      && (v.status.percent.Some? ==> v.status.percent.value == v.barPercent)
      && (v.status.showsSpeed <==> d.speedBps > 0)
  {
    var percent := ProgressPercent(d.receivedBytes, d.totalBytes);
    match d.state
    case Completed => ItemView(Done, 100, true)
    case Failed => ItemView(FailedStatus, percent, true)
    case Interrupted => ItemView(Paused, percent, true)
    case Cancelled => ItemView(CancelledStatus, percent, true)
    case Progress =>
      ItemView(Downloading(if d.totalBytes > 0 then Some(percent) else None, d.speedBps > 0), percent, false)
  }

  /** What the shelf shows follows the snapshots: a completed snapshot shows
      Done with a full bar, and while a download runs with a known total its
      bar never shrinks as more bytes arrive. */
  lemma ShelfFollowsSnapshots(m: Mirror, snap: Download, later: Download)
    requires snap.id !in m.dismissed
    requires later.id == snap.id && later.state == Progress && snap.state == Progress
    requires snap.totalBytes > 0 && later.totalBytes == snap.totalBytes && snap.receivedBytes <= later.receivedBytes
    ensures var m1 := UpdateDownloadItem(m, snap.(state := Completed));
      RenderDownloadItem(m1.live[snap.id]) == ItemView(Done, 100, true)
    ensures var m1 := UpdateDownloadItem(m, snap);
      var m2 := UpdateDownloadItem(m1, later);
      && RenderDownloadItem(m1.live[snap.id]).barPercent <= RenderDownloadItem(m2.live[snap.id]).barPercent
      && RenderDownloadItem(m2.live[snap.id]).status == Downloading(Some(RenderDownloadItem(m2.live[snap.id]).barPercent), later.speedBps > 0)
  {
    PercentMonotone(snap.receivedBytes, later.receivedBytes, snap.totalBytes);
  }
}

=== FILE: navigation.dfy ===
/** The navigation gate: back, forward and reload reach the active webview
    only once that webview has reported `dom-ready`, and the toolbar's back and
    forward buttons follow the same rule. `canGoBack` and `canGoForward` are
    the webview's own answers, taken as inputs. */
module Navigation {

  import opened Seqs
  import opened Tabs

  /** Commands sent to the active webview. */
  datatype NavCommand = GoBack | GoForward | Reload

  /** `getActiveWebview` (renderer.js:949-952): the active tab's webview, which
      exists exactly while its tab is listed. */
  function ActiveWebview(r: Registry): (w: Option<Tab>)
    ensures r.active.None? ==> w.None?
    ensures w.Some? ==> r.active.Some? && w.value.id == r.active.value && w.value in r.tabs
    ensures Valid(r) ==> w.Some?
  {
    if r.active.None? then None else GetTab(r, r.active.value)
  }

  /** `isWebviewReady` (renderer.js:954-956). */
  predicate IsWebviewReady(w: Option<Tab>) {
    w.Some? && w.value.domReady
  }

  /** The active webview is ready exactly when the active tab has seen its
      `dom-ready`: a new tab is not ready, and its `dom-ready` makes it so. */
  lemma ReadinessFollowsDomReady(r: Registry, url: string)
    requires Valid(r)
    ensures IsWebviewReady(ActiveWebview(r)) <==> GetTab(r, r.active.value).value.domReady
    ensures IsWebviewReady(ActiveWebview(MarkDomReady(r, r.active.value)))
    ensures !IsWebviewReady(ActiveWebview(CreateTab(r, url)))
  {
    FreshTabIgnoresNavigation(r, url, false, false);
  }

  /** `navigateBack` (renderer.js:1244-1249). */
  function NavigateBack(r: Registry, canGoBack: bool): (c: Option<NavCommand>)
    ensures c.Some? <==> IsWebviewReady(ActiveWebview(r)) && canGoBack
    ensures c.Some? ==> c.value == GoBack
  {
    if IsWebviewReady(ActiveWebview(r)) && canGoBack then Some(GoBack) else None
  }

  /** `navigateForward` (renderer.js:1251-1256). */
  function NavigateForward(r: Registry, canGoForward: bool): (c: Option<NavCommand>)
    ensures c.Some? <==> IsWebviewReady(ActiveWebview(r)) && canGoForward
    ensures c.Some? ==> c.value == GoForward
  {
    if IsWebviewReady(ActiveWebview(r)) && canGoForward then Some(GoForward) else None
  }

  /** `reloadPage` (renderer.js:1258-1263). */
  function ReloadPage(r: Registry): (c: Option<NavCommand>)
    ensures c.Some? <==> IsWebviewReady(ActiveWebview(r))
    ensures c.Some? ==> c.value == Reload
  {
    if IsWebviewReady(ActiveWebview(r)) then Some(Reload) else None
  }

  datatype Buttons = Buttons(backDisabled: bool, forwardDisabled: bool)

  /** `updateNavigationButtons` (renderer.js:1270-1282). */
  function NavigationButtons(r: Registry, canGoBack: bool, canGoForward: bool): (b: Buttons)
    ensures !IsWebviewReady(ActiveWebview(r)) ==> b.backDisabled && b.forwardDisabled
    // a button is enabled exactly when pressing it issues its command
    ensures !b.backDisabled <==> NavigateBack(r, canGoBack).Some?
    ensures !b.forwardDisabled <==> NavigateForward(r, canGoForward).Some?
  {
    if !IsWebviewReady(ActiveWebview(r)) then Buttons(true, true)
    else Buttons(!canGoBack, !canGoForward)
  }

  /** A tab that has just been created is active and its webview is not
      ready: every navigation command is ignored and both buttons are
      disabled until its `dom-ready` arrives. */
  lemma FreshTabIgnoresNavigation(r: Registry, url: string, canGoBack: bool, canGoForward: bool)
    requires IdsBelow(r.tabs, r.counter)
    ensures var r' := CreateTab(r, url);
      && NavigateBack(r', canGoBack).None?
      && NavigateForward(r', canGoForward).None?
      && ReloadPage(r').None?
      && NavigationButtons(r', canGoBack, canGoForward) == Buttons(true, true)
  {
    var r' := CreateTab(r, url);
    var n := |r.tabs|;
    assert r'.tabs[n].id == r.counter;
    assert forall j :: 0 <= j < n ==> r'.tabs[j].id != r.counter;
    IndexWhereIs(r'.tabs, (t: Tab) => t.id == r.counter, n);
  }

  /** After the active tab's `dom-ready`, reload always goes through, and
      back/forward go through exactly when the webview can go that way. */
  lemma ReadyActiveTabNavigates(r: Registry, canGoBack: bool, canGoForward: bool)
    requires Valid(r)
    ensures var r' := MarkDomReady(r, r.active.value);
      && ReloadPage(r') == Some(Reload)
      && (NavigateBack(r', canGoBack).Some? <==> canGoBack)
      && (NavigateForward(r', canGoForward).Some? <==> canGoForward)
  {
  }

  /** Readiness never goes back to false: the loading, title and favicon
      listeners keep each listed tab's flag, and `dom-ready` only sets it. */
  lemma ReadinessIsSticky(r: Registry, id: TabId, j: TabId, loading: bool, title: string, favicon: string)
    requires GetTab(r, j).Some? && GetTab(r, j).value.domReady
    ensures var t := GetTab(SetLoading(r, id, loading), j); t.Some? && t.value.domReady
    ensures var t := GetTab(SetTitle(r, id, title), j); t.Some? && t.value.domReady
    ensures var t := GetTab(SetFavicon(r, id, favicon), j); t.Some? && t.value.domReady
    ensures var t := GetTab(MarkDomReady(r, id), j); t.Some? && t.value.domReady
  {
    StaysReady(r, SetLoading(r, id, loading), id, j);
    StaysReady(r, SetTitle(r, id, title), id, j);
    StaysReady(r, SetFavicon(r, id, favicon), id, j);
    StaysReady(r, MarkDomReady(r, id), id, j);
  }

  /** The same for the navigation listeners: a new address and a fallback
      favicon keep every listed tab's flag. */
  lemma NavigatingKeepsReadiness(r: Registry, id: TabId, j: TabId,
                                 url: string, settingsPrefix: string, homePrefix: string, origin: Option<string>)
    requires GetTab(r, j).Some? && GetTab(r, j).value.domReady
    ensures var t := GetTab(RequestFallbackFavicon(r, id, url, origin), j); t.Some? && t.value.domReady
    ensures var t := GetTab(SetUrl(r, id, url, settingsPrefix, homePrefix), j); t.Some? && t.value.domReady
  {
    StaysReady(r, RequestFallbackFavicon(r, id, url, origin), id, j);
    StaysReady(r, SetUrl(r, id, url, settingsPrefix, homePrefix), id, j);
  }

  /** A change confined to tab `id` that keeps that tab's own readiness keeps
      every tab's readiness. */
  lemma StaysReady(r: Registry, r': Registry, id: TabId, j: TabId)
    requires OnlyTabChanged(r, r', id)
    requires Listed(r.tabs, id) && GetTab(r, id).value.domReady ==> GetTab(r', id).Some? && GetTab(r', id).value.domReady
    requires GetTab(r, j).Some? && GetTab(r, j).value.domReady
    ensures GetTab(r', j).Some? && GetTab(r', j).value.domReady
  {
  }
}

=== FILE: seqs.dfy ===
/** Sequence and string helpers shared by every part of the session model:
    the JavaScript string tests the renderer uses (`startsWith`, `includes`),
    `slice(0, n)`, `findIndex`, and a subsequence relation for stating that an
    operation keeps the relative order of what it keeps. */
module Seqs {

  datatype Option<+T> = None | Some(value: T)

  /** JavaScript's `s.startsWith(p)`. */
  predicate StartsWith(s: string, p: string) {
    |p| <= |s| && s[..|p|] == p
  }

  /** JavaScript's `s.includes(sub)`. */
  predicate Includes(s: string, sub: string)
    decreases |s|
  {
    StartsWith(s, sub) || (|s| > 0 && Includes(s[1..], sub))
  }

  /** JavaScript's `s.slice(0, n)`: the first `n` elements, or all of them. */
  function Take<T>(s: seq<T>, n: nat): (r: seq<T>)
    ensures |r| == if |s| <= n then |s| else n
    ensures r == s[..|r|]
  {
    if |s| <= n then s else s[..n]
  }

  /** JavaScript's `s.splice(i, 1)` on a copy: `s` without its element at `i`. */
  function RemoveAt<T>(s: seq<T>, i: nat): (r: seq<T>)
    requires i < |s|
    ensures |r| == |s| - 1
    ensures forall j :: 0 <= j < i ==> r[j] == s[j]
    ensures forall j :: i < j < |s| ==> r[j - 1] == s[j]
  {
    s[..i] + s[i + 1..]
  }

  /** JavaScript's `s.findIndex(p)`, with `None` for -1: the FIRST index whose
      element satisfies `p`. */
  function IndexWhere<T>(s: seq<T>, p: T -> bool): (r: Option<nat>)
    ensures r.Some? ==> r.value < |s| && p(s[r.value])
    ensures r.Some? ==> forall j :: 0 <= j < r.value ==> !p(s[j])
    ensures r.None? ==> forall j :: 0 <= j < |s| ==> !p(s[j])
  {
    if |s| == 0 then None
    else if p(s[0]) then Some(0)
    else match IndexWhere(s[1..], p)
      case None => None
      case Some(k) => Some(k + 1)
  }

  /** The index `findIndex` returns is determined by the elements alone. */
  lemma IndexWhereIs<T>(s: seq<T>, p: T -> bool, k: nat)
    requires k < |s| && p(s[k])
    requires forall j :: 0 <= j < k ==> !p(s[j])
    ensures IndexWhere(s, p) == Some(k)
  {
  }

  /** `a` is obtained from `b` by deleting elements (order kept). */
  predicate IsSubseq<T(==)>(a: seq<T>, b: seq<T>)
    decreases |b|
  {
    if |a| == 0 then true
    else if |b| == 0 then false
    else if a[0] == b[0] then IsSubseq(a[1..], b[1..])
    else IsSubseq(a, b[1..])
  }

  /** Every element of a subsequence is an element of the whole. */
  lemma {:induction false} SubseqMembers<T>(a: seq<T>, b: seq<T>)
    requires IsSubseq(a, b)
    ensures forall x :: x in a ==> x in b
    decreases |b|
  {
    if |a| > 0 && |b| > 0 {
      if a[0] == b[0] {
        SubseqMembers(a[1..], b[1..]);
        assert forall x :: x in a ==> x == a[0] || x in a[1..];
      } else {
        SubseqMembers(a, b[1..]);
      }
    }
  }

  /** A prefix of a subsequence is a subsequence. */
  lemma {:induction false} SubseqPrefix<T>(a: seq<T>, b: seq<T>, k: nat)
    requires IsSubseq(a, b) && k <= |a|
    ensures IsSubseq(a[..k], b)
    decreases |b|
  {
    if k > 0 && |b| > 0 {
      if a[0] == b[0] {
        SubseqPrefix(a[1..], b[1..], k - 1);
        assert a[..k][1..] == a[1..][..k - 1];
      } else {
        SubseqPrefix(a, b[1..], k);
      }
    }
  }

  /** Deleting one element leaves a subsequence. */
  lemma {:induction false} RemoveAtIsSubseq<T>(s: seq<T>, i: nat)
    requires i < |s|
    ensures IsSubseq(RemoveAt(s, i), s)
    decreases |s|
  {
    if i == 0 {
      assert RemoveAt(s, 0) == s[1..];
      SelfSubseq(s[1..]);
      TailSubseq(s[1..], s);
    } else {
      RemoveAtIsSubseq(s[1..], i - 1);
      assert RemoveAt(s, i)[1..] == RemoveAt(s[1..], i - 1);
    }
  }

  lemma {:induction false} SelfSubseq<T>(s: seq<T>)
    ensures IsSubseq(s, s)
    decreases |s|
  {
    if |s| > 0 {
      SelfSubseq(s[1..]);
    }
  }

  /** A subsequence of the tail of `b` is a subsequence of `b`. */
  lemma {:induction false} TailSubseq<T>(a: seq<T>, b: seq<T>)
    requires |b| > 0 && IsSubseq(a, b[1..])
    ensures IsSubseq(a, b)
    decreases |b|, |a|
  {
    if |a| > 0 && a[0] == b[0] {
      SubseqDropHead(a, b[1..]);
    }
  }

  /** Dropping the head of a subsequence leaves a subsequence. */
  lemma {:induction false} SubseqDropHead<T>(a: seq<T>, b: seq<T>)
    requires |a| > 0 && IsSubseq(a, b)
    ensures IsSubseq(a[1..], b)
    decreases |b|, |a|
  {
    if |b| > 0 {
      if a[0] == b[0] {
        TailSubseq(a[1..], b);
      } else {
        SubseqDropHead(a, b[1..]);
        TailSubseq(a[1..], b);
      }
    }
  }
}

=== FILE: session.dfy ===
/** The renderer's whole session state and the single dispatch function that
    applies one inbound event: a user command, a webview lifecycle event, a
    download snapshot or a shelf click. Each event is processed to completion
    before the next, so a run of the session is a fold over its events. */
module Session {

  import opened Seqs
  import opened Storage
  import opened Tabs
  import opened Navigation
  import BH = BrowseHistory
  import opened Downloads
  import opened Chrome

  datatype Session = Session(
    registry: Registry,
    browse: seq<BH.Entry>,
    downloads: Mirror,
    theme: string,
    engine: string)

  /** What the session takes from URL parsing and the page files, none of
      which it interprets: the file-URL prefixes of the bundled settings and
      home pages ("" while not computed), the two internal-URL tests,
      `new URL(u).origin` (`None` when parsing throws), the page's `theme`
      query parameter, and `encodeURIComponent`. */
  datatype Env = Env(
    settingsPrefix: string,
    homePrefix: string,
    isInternalSettings: string -> bool,
    isInternalHome: string -> bool,
    originOf: string -> Option<string>,
    themeParam: string -> Option<string>,
    encode: string -> string)

  /** The listeners of one webview (renderer.js:823-888). `now` is the
      navigation's `Date.now()`. */
  datatype WebviewEvent =
    | DomReady
    | StartLoading
    | StopLoading
    | TitleUpdated(title: string)
    | FaviconsUpdated(favicons: seq<string>)
    | Navigated(url: string, now: int)
    | NavigatedInPage(url: string, now: int)
    | WillNavigate(url: string)
    | NewWindow(url: string)
    | LoadFailed(errorCode: int)

  datatype Event =
    | TabCmd(cmd: TabCommand)
    | Webview(tabId: TabId, ev: WebviewEvent)
    | BackClicked(canGoBack: bool)
    | ForwardClicked(canGoForward: bool)
    | ReloadClicked
    | AddressEntered(text: string)       // the trimmed address-bar text on Enter or Go
    | HomeClicked
    | SettingsClicked
    | EngineChosen(key: string)
    | DownloadSnapshot(snap: Download)
    | ShelfClicked(action: ShelfAction)

  /** What an event sends out: a navigation command to the active webview, an
      IPC message to the host, a URL loaded into the active webview, or the
      cancellation of a navigation the page started. */
  datatype Command =
    | Nav(nav: NavCommand)
    | Host(host: HostCommand)
    | LoadUrl(url: string)
    | PreventNavigation

  datatype Outcome = Outcome(session: Session, out: seq<Command>)

  /** What holds from `init` on, whatever was stored. */
  predicate Inv(s: Session) {
    Valid(s.registry) && IsEngineKey(s.engine) && KeysMatch(s.downloads)
  }

  /** What holds once the logs are within their caps and hold only web
      pages; every step keeps it. */
  predicate Tidy(s: Session) {
    && |s.browse| <= BH.Limit
    && (forall i :: 0 <= i < |s.browse| ==> IsWebUrl(s.browse[i].url))
    && BH.UniqueUrls(s.browse)
    && |s.downloads.history| <= HistoryLimit
    && UniqueIds(s.downloads.history)
  }

  /** The bundled pages' URLs come from `pathToFileURL` (renderer.js:481-505),
      so each prefix is a `file://` URL, or "" before it is first computed. */
  predicate PrefixesAreFileUrls(env: Env) {
    && (env.settingsPrefix == "" || StartsWith(env.settingsPrefix, "file://"))
    && (env.homePrefix == "" || StartsWith(env.homePrefix, "file://"))
  }

  /** The URL is the settings page's own file URL with a known `theme`
      parameter, which `applySettingsFromFileUrl` adopts (renderer.js:507-519). */
  predicate CarriesTheme(env: Env, url: string) {
    && env.settingsPrefix != "" && StartsWith(url, env.settingsPrefix)
    && env.themeParam(url).Some? && env.themeParam(url).value in Themes
  }

  /** With file-URL prefixes the two `app://` display addresses are shown as
      they are and carry no theme. */
  lemma AppUrlsStayPut(env: Env)
    ensures PrefixesAreFileUrls(env) ==>
      && NormalizeDisplayUrl(SettingsDisplayUrl, env.settingsPrefix, env.homePrefix) == SettingsDisplayUrl
      && NormalizeDisplayUrl(HomeDisplayUrl, env.settingsPrefix, env.homePrefix) == HomeDisplayUrl
      && !CarriesTheme(env, SettingsDisplayUrl) && !CarriesTheme(env, HomeDisplayUrl)
  {
    if PrefixesAreFileUrls(env) {
      NotFilePrefixed(SettingsDisplayUrl, env.settingsPrefix);
      NotFilePrefixed(SettingsDisplayUrl, env.homePrefix);
      NotFilePrefixed(HomeDisplayUrl, env.settingsPrefix);
      NotFilePrefixed(HomeDisplayUrl, env.homePrefix);
    }
  }

  lemma NotFilePrefixed(url: string, prefix: string)
    requires |url| > 0 && url[0] == 'a'
    requires prefix == "" || StartsWith(prefix, "file://")
    ensures prefix != "" ==> !StartsWith(url, prefix)
  {
    if prefix != "" {
      assert prefix[0] == "file://"[0];
    }
  }

  /** `init` (renderer.js:113-128), with the startup reads of the engine key,
      the theme and both logs, and the first tab on the home page. */
  function Init(storedEngine: Option<string>, storedTheme: Option<string>,
                storedDownloads: Stored<Download>, storedBrowse: Stored<BH.Entry>, homeUrl: string): (s: Session)
    ensures Inv(s)
    ensures |s.registry.tabs| == 1 && s.registry.tabs[0].url == homeUrl
    ensures s.downloads.live == map[] && s.downloads.dismissed == {}
    ensures storedDownloads.List? ==> s.downloads.history == storedDownloads.items
    ensures !storedDownloads.List? ==> s.downloads.history == []
    ensures storedBrowse.List? ==> s.browse == storedBrowse.items
    ensures !storedBrowse.List? ==> s.browse == []
    // the stored theme is taken as it is (renderer.js:105)
    ensures storedTheme.Some? && storedTheme.value != "" ==> s.theme == storedTheme.value
    ensures storedTheme.None? || storedTheme.value == "" ==> s.theme == DefaultTheme
    ensures storedEngine.Some? && IsEngineKey(storedEngine.value) ==> s.engine == storedEngine.value
    // nothing stored, an empty value or an unknown key starts on duckduckgo
    ensures !(storedEngine.Some? && IsEngineKey(storedEngine.value)) ==> s.engine == DefaultEngineKey
  {
    Session(
      Tabs.Init(homeUrl),
      BH.LoadBrowseHistory(storedBrowse),
      Mirror(map[], {}, LoadDownloadHistory(storedDownloads)),
      StoredOr(storedTheme, DefaultTheme),
      StartupEngine(storedEngine))
  }

  /** `updateTabUrl` together with the theme side effect of
      `normalizeDisplayUrl` on the settings page's own URL
      (renderer.js:507-519, 1160-1181). */
  function UpdateTabUrl(s: Session, env: Env, id: TabId, url: string): (s': Session)
    ensures OnlyTabChanged(s.registry, s'.registry, id)
    ensures s'.browse == s.browse && s'.downloads == s.downloads && s'.engine == s.engine
    ensures Inv(s) ==> Inv(s')
    ensures CarriesTheme(env, url) ==> s'.theme == env.themeParam(url).value
    ensures !CarriesTheme(env, url) ==> s'.theme == s.theme
    ensures Listed(s.registry.tabs, id) ==>
      GetTab(s'.registry, id) == Some(GetTab(s.registry, id).value.(url := NormalizeDisplayUrl(url, env.settingsPrefix, env.homePrefix)))
  {
    var theme := if CarriesTheme(env, url) then env.themeParam(url).value else s.theme;
    s.(registry := SetUrl(s.registry, id, url, env.settingsPrefix, env.homePrefix), theme := theme)
  }

  /** `openSettingsPage` (renderer.js:559-580) as far as the session sees it:
      the active tab shows `app://settings`. */
  function OpenSettingsPage(s: Session, env: Env): (s': Session)
    ensures s'.browse == s.browse && s'.downloads == s.downloads && s'.engine == s.engine
    ensures Inv(s) ==> Inv(s')
    ensures Valid(s.registry) ==>
      var t := GetTab(s'.registry, s.registry.active.value);
      t.Some? && t.value.url == NormalizeDisplayUrl(SettingsDisplayUrl, env.settingsPrefix, env.homePrefix)
    // only the active tab changes, and only its address
    ensures ActiveWebview(s.registry).None? ==> s' == s
    ensures ActiveWebview(s.registry).Some? ==> OnlyTabChanged(s.registry, s'.registry, s.registry.active.value)
    ensures Valid(s.registry) && PrefixesAreFileUrls(env) ==>
      GetTab(s'.registry, s.registry.active.value) == Some(GetTab(s.registry, s.registry.active.value).value.(url := SettingsDisplayUrl))
    ensures PrefixesAreFileUrls(env) ==> s'.theme == s.theme
  {
    AppUrlsStayPut(env);
    match ActiveWebview(s.registry)
    case None => s
    case Some(w) => UpdateTabUrl(s, env, w.id, SettingsDisplayUrl)
  }

  /** `openHomePage` (renderer.js:582-589) as far as the session sees it. */
  function OpenHomePage(s: Session, env: Env): (s': Session)
    ensures s'.browse == s.browse && s'.downloads == s.downloads && s'.engine == s.engine
    ensures Inv(s) ==> Inv(s')
    ensures Valid(s.registry) ==>
      var t := GetTab(s'.registry, s.registry.active.value);
      t.Some? && t.value.url == NormalizeDisplayUrl(HomeDisplayUrl, env.settingsPrefix, env.homePrefix)
    // only the active tab changes, and only its address
    ensures ActiveWebview(s.registry).None? ==> s' == s
    ensures ActiveWebview(s.registry).Some? ==> OnlyTabChanged(s.registry, s'.registry, s.registry.active.value)
    ensures Valid(s.registry) && PrefixesAreFileUrls(env) ==>
      GetTab(s'.registry, s.registry.active.value) == Some(GetTab(s.registry, s.registry.active.value).value.(url := HomeDisplayUrl))
    ensures PrefixesAreFileUrls(env) ==> s'.theme == s.theme
  {
    AppUrlsStayPut(env);
    match ActiveWebview(s.registry)
    case None => s
    case Some(w) => UpdateTabUrl(s, env, w.id, HomeDisplayUrl)
  }

  datatype Handled = Handled(handled: bool, session: Session)

  /** `handleInternalNavigation(url)` (renderer.js:539-557): the settings and
      home pseudo-URLs are served by the browser itself. */
  function HandleInternalNavigation(s: Session, env: Env, url: string): (h: Handled)
    ensures h.handled <==> env.isInternalSettings(url) || env.isInternalHome(url)
    ensures !h.handled ==> h.session == s
    ensures h.session.browse == s.browse && h.session.downloads == s.downloads && h.session.engine == s.engine
    ensures Inv(s) ==> Inv(h.session)
    // a handled URL changes only the active tab's address, and the theme
    ensures h.handled && Valid(s.registry) ==> OnlyTabChanged(s.registry, h.session.registry, s.registry.active.value)
    ensures env.isInternalSettings(url) && Valid(s.registry) && PrefixesAreFileUrls(env) ==>
      GetTab(h.session.registry, s.registry.active.value) ==
        Some(GetTab(s.registry, s.registry.active.value).value.(url := SettingsDisplayUrl))
    ensures env.isInternalSettings(url) && PrefixesAreFileUrls(env) ==>
      h.session.theme == (if env.themeParam(url).Some? && env.themeParam(url).value in Themes
                          then env.themeParam(url).value else s.theme)
    ensures !env.isInternalSettings(url) && env.isInternalHome(url) && Valid(s.registry) && PrefixesAreFileUrls(env) ==>
      GetTab(h.session.registry, s.registry.active.value) ==
        Some(GetTab(s.registry, s.registry.active.value).value.(url := HomeDisplayUrl))
    ensures !env.isInternalSettings(url) && PrefixesAreFileUrls(env) ==> h.session.theme == s.theme
  {
    if env.isInternalSettings(url) then
      var t := env.themeParam(url);
      var s1 := if t.Some? && t.value in Themes then s.(theme := ValidTheme(t.value)) else s;
      Handled(true, OpenSettingsPage(s1, env))
    else if env.isInternalHome(url) then
      Handled(true, OpenHomePage(s, env))
    else
      Handled(false, s)
  }

  /** Every browse-log entry is a web page. */
  predicate WebOnly(h: seq<BH.Entry>) {
    forall i :: 0 <= i < |h| ==> IsWebUrl(h[i].url)
  }

  lemma AddKeepsWebOnly(h: seq<BH.Entry>, r: Registry, id: TabId, url: string, now: int)
    ensures WebOnly(h) ==> WebOnly(BH.AddHistoryEntry(h, r, id, url, now))
  {
    var h' := BH.AddHistoryEntry(h, r, id, url, now);
    if WebOnly(h) && IsWebUrl(url) {
      SubseqMembers(h'[1..], h);
      forall i | 0 <= i < |h'|
        ensures IsWebUrl(h'[i].url)
      {
        if i > 0 {
          assert h'[i] == h'[1..][i - 1];
          assert h'[i] in h'[1..];
          assert h'[i] in h;
          var k :| 0 <= k < |h| && h[k] == h'[i];
        }
      }
    }
  }

  /** One webview listener (renderer.js:823-888). The listeners close over
      the tab's id; every projection ignores an id that is no longer listed. */
  function WebviewStep(s: Session, env: Env, id: TabId, ev: WebviewEvent): (o: Outcome)
    ensures o.session.downloads == s.downloads && o.session.engine == s.engine
    ensures Inv(s) ==> Inv(o.session)
    ensures Tidy(s) ==> Tidy(o.session)
    ensures !ev.WillNavigate? && !ev.NewWindow? ==> o.out == []
  {
    match ev
    case DomReady => Outcome(s.(registry := MarkDomReady(s.registry, id)), [])
    case StartLoading => Outcome(s.(registry := SetLoading(s.registry, id, true)), [])
    case StopLoading => Outcome(s.(registry := SetLoading(s.registry, id, false)), [])
    case TitleUpdated(title) =>
      var r := SetTitle(s.registry, id, title);
      Outcome(s.(registry := r, browse := BH.UpdateHistoryTitle(s.browse, r, id, title)), [])
    case FaviconsUpdated(favicons) =>
      if |favicons| > 0 then Outcome(s.(registry := SetFavicon(s.registry, id, favicons[0])), [])
      else Outcome(s, [])
    case Navigated(url, now) =>
      var s1 := UpdateTabUrl(s, env, id, url);
      var r := RequestFallbackFavicon(s1.registry, id, url, env.originOf(url));
      AddKeepsWebOnly(s1.browse, r, id, url, now);
      Outcome(s1.(registry := r, browse := BH.AddHistoryEntry(s1.browse, r, id, url, now)), [])
    case NavigatedInPage(url, now) =>
      var s1 := UpdateTabUrl(s, env, id, url);
      AddKeepsWebOnly(s1.browse, s1.registry, id, url, now);
      Outcome(s1.(browse := BH.AddHistoryEntry(s1.browse, s1.registry, id, url, now)), [])
    case WillNavigate(url) =>
      var h := HandleInternalNavigation(s, env, url);
      Outcome(h.session, if h.handled then [PreventNavigation] else [])
    case NewWindow(url) =>
      var h := HandleInternalNavigation(s, env, url);
      if h.handled then Outcome(h.session, [])
      else Outcome(s.(registry := CreateTab(s.registry, url)), [])
    case LoadFailed(_) => Outcome(s, [])
  }

  /** `navigateToUrl` (renderer.js:1219-1242). The engine table is read only
      for a search, where an unknown key would make the source throw; `Inv`
      rules that out. */
  function NavigateToUrl(s: Session, env: Env, text: string): (o: Outcome)
    ensures o.session.downloads == s.downloads && o.session.browse == s.browse
    ensures Inv(s) ==> Inv(o.session)
    ensures |o.out| <= 1
    // whatever is typed, what gets loaded is an http(s) URL
    ensures |o.out| == 1 ==> o.out[0].LoadUrl? && IsWebUrl(o.out[0].url)
    ensures text == "" || ActiveWebview(s.registry).None? ==> o == Outcome(s, [])
    // internal pseudo-URLs are served in place and load nothing
    ensures env.isInternalSettings(text) || env.isInternalHome(text) ==> o.out == []
    // ... and open their page in the active tab (renderer.js:1227-1229)
    ensures text != "" && ActiveWebview(s.registry).Some? && (env.isInternalSettings(text) || env.isInternalHome(text)) ==>
      o.session == HandleInternalNavigation(s, env, text).session
    ensures Inv(s) && text != "" && !env.isInternalSettings(text) && !env.isInternalHome(text) ==>
      o == Outcome(s, [LoadUrl(ResolveAddress(text, EngineOf(s.engine).value, env.encode))])
  {
    if ActiveWebview(s.registry).None? || text == "" then Outcome(s, [])
    else
      var h := HandleInternalNavigation(s, env, text);
      if h.handled then Outcome(h.session, [])
      else if ClassifyAddress(text) == Search && !IsEngineKey(s.engine) then Outcome(s, [])
      else
        var key := if IsEngineKey(s.engine) then s.engine else DefaultEngineKey;
        ResolvedAddressIsWebUrl(text, key, env.encode);
        Outcome(s, [LoadUrl(ResolveAddress(text, EngineOf(key).value, env.encode))])
  }

  /** Apply one event. */
  function Step(s: Session, env: Env, e: Event): (o: Outcome)
    ensures Inv(s) ==> Inv(o.session)
    ensures Tidy(s) ==> Tidy(o.session)
    // download events touch only the download mirror
    ensures e.DownloadSnapshot? || e.ShelfClicked? ==>
      o.session == s.(downloads := o.session.downloads)
    // everything else leaves the download mirror alone
    ensures !e.DownloadSnapshot? && !e.ShelfClicked? ==> o.session.downloads == s.downloads
    // navigation buttons only ever send commands to a ready webview
    ensures e.BackClicked? || e.ForwardClicked? || e.ReloadClicked? ==>
      && o.session == s
      && (o.out != [] ==> IsWebviewReady(ActiveWebview(s.registry)))
  {
    match e
    case TabCmd(cmd) => Outcome(s.(registry := Apply(s.registry, cmd)), [])
    case Webview(id, ev) => WebviewStep(s, env, id, ev)
    case BackClicked(canGoBack) =>
      Outcome(s, match NavigateBack(s.registry, canGoBack) case Some(c) => [Nav(c)] case None => [])
    case ForwardClicked(canGoForward) =>
      Outcome(s, match NavigateForward(s.registry, canGoForward) case Some(c) => [Nav(c)] case None => [])
    case ReloadClicked =>
      Outcome(s, match ReloadPage(s.registry) case Some(c) => [Nav(c)] case None => [])
    case AddressEntered(text) => NavigateToUrl(s, env, text)
    case HomeClicked => Outcome(OpenHomePage(s, env), [])
    case SettingsClicked => Outcome(OpenSettingsPage(s, env), [])
    case EngineChosen(key) => Outcome(s.(engine := SetSearchEngine(s.engine, key)), [])
    case DownloadSnapshot(snap) => Outcome(s.(downloads := UpdateDownloadItem(s.downloads, snap)), [])
    case ShelfClicked(action) =>
      var r := ShelfClick(s.downloads, action);
      Outcome(s.(downloads := r.mirror), match r.command case Some(c) => [Host(c)] case None => [])
  }

  /** Apply a sequence of events, collecting what they send out. */
  function Run(s: Session, env: Env, es: seq<Event>): (o: Outcome)
    ensures Inv(s) ==> Inv(o.session)
    ensures Tidy(s) ==> Tidy(o.session)
    decreases |es|
  {
    if |es| == 0 then Outcome(s, [])
    else
      var first := Step(s, env, es[0]);
      var rest := Run(first.session, env, es[1..]);
      Outcome(rest.session, first.out + rest.out)
  }

  /** From startup on, whatever the stored values and events: the registry is
      never empty, the active id names exactly one listed tab, and the engine
      key is a known one. */
  lemma StartupThenAnyEventsKeepsInvariant(
    storedEngine: Option<string>, storedTheme: Option<string>,
    storedDownloads: Stored<Download>, storedBrowse: Stored<BH.Entry>, homeUrl: string,
    env: Env, es: seq<Event>)
    ensures var s := Run(Init(storedEngine, storedTheme, storedDownloads, storedBrowse, homeUrl), env, es).session;
      && |s.registry.tabs| > 0
      && s.registry.active.Some?
      && Listed(s.registry.tabs, s.registry.active.value)
      && IsEngineKey(s.engine)
  {
  }

  /** Once the logs are tidy they stay so: both caps hold, no URL is recorded
      twice, each download id has at most one history entry, and no internal
      pseudo-URL is ever recorded in the browse history. */
  lemma LogsStayCappedAndWebOnly(s: Session, env: Env, es: seq<Event>)
    requires Tidy(s)
    ensures var s' := Run(s, env, es).session;
      && |s'.browse| <= BH.Limit
      && |s'.downloads.history| <= HistoryLimit
      && BH.UniqueUrls(s'.browse)
      && UniqueIds(s'.downloads.history)
      && forall i :: 0 <= i < |s'.browse| ==> !StartsWith(s'.browse[i].url, "app://")
  {
    var s' := Run(s, env, es).session;
    assert Tidy(s');
    forall i | 0 <= i < |s'.browse|
      ensures !StartsWith(s'.browse[i].url, "app://")
    {
      WebUrlIsNotInternal(s'.browse[i].url);
    }
  }

  lemma WebUrlIsNotInternal(u: string)
    requires IsWebUrl(u)
    ensures !StartsWith(u, "app://")
  {
    assert u[0] == 'h';
  }
}

=== FILE: storage.dfy ===
/** The renderer's view of `localStorage`: best-effort reads that fall back
    to a default instead of failing (renderer.js `safeGetStorage`,
    `safeGetJson` and the `Array.isArray` checks of the two history loaders). */
module Storage {

  import opened Seqs

  /** What reading one JSON-valued key can yield. `Absent` covers a missing
      key, an empty string and a read that throws; `Unparsable` a value
      `JSON.parse` rejects; `NotAList` a value that parses to something other
      than an array (including `null`). */
  datatype Stored<T> = Absent | Unparsable | NotAList | List(items: seq<T>)

  /** `safeGetStorage(key, fallback)`: the stored string, or the fallback
      when the key is missing, unreadable or holds the empty string. */
  function StoredOr(stored: Option<string>, fallback: string): (r: string)
    ensures stored.Some? && stored.value != "" ==> r == stored.value
    ensures stored.None? || stored.value == "" ==> r == fallback
  {
    if stored.Some? && stored.value != "" then stored.value else fallback
  }

  /** A history log as loaded at startup: the stored array, or the empty log
      for anything else. Never fails. */
  function LoadList<T>(stored: Stored<T>): (r: seq<T>)
    ensures stored.List? ==> r == stored.items
    ensures !stored.List? ==> r == []
  {
    match stored
    case List(items) => items
    case _ => []
  }

  /** What `JSON.stringify` of a history log stores under its key. */
  function SaveList<T>(items: seq<T>): (r: Stored<T>)
    ensures LoadList(r) == items
  {
    List(items)
  }
}

=== FILE: tabs.dfy ===
/** The tab registry of the renderer (renderer.js `tabs`, `activeTabId`,
    `tabIdCounter`): creating, switching and closing tabs, and the per-tab
    projections that the webview's lifecycle events drive. */
module Tabs {

  import opened Seqs

  type TabId = nat

  const NewTabTitle: string := "New Tab"
  const UntitledTitle: string := "Untitled"
  const SettingsDisplayUrl: string := "app://settings"
  const HomeDisplayUrl: string := "app://home"

  /** One open tab. `favicon` is "" when the tab has none: the source's `null`
      and `""` behave alike everywhere the favicon is read. `domReady` is the
      readiness flag of the tab's paired webview, which is created and removed
      together with the tab. */
  datatype Tab = Tab(id: TabId, url: string, title: string, favicon: string, loading: bool, domReady: bool)

  /** `active` is `None` only before the first tab is created. */
  datatype Registry = Registry(tabs: seq<Tab>, active: Option<TabId>, counter: nat)

  /** The registry before `init` creates the first tab. */
  const Empty: Registry := Registry([], None, 0)

  predicate Listed(tabs: seq<Tab>, id: TabId) {
    exists i :: 0 <= i < |tabs| && tabs[i].id == id
  }

  /** `tabs.findIndex(t => t.id === id)`. */
  function FindTab(tabs: seq<Tab>, id: TabId): (r: Option<nat>)
    ensures r.Some? ==> r.value < |tabs| && tabs[r.value].id == id
    ensures r.Some? ==> forall j :: 0 <= j < r.value ==> tabs[j].id != id
    ensures r.None? <==> !Listed(tabs, id)
  {
    IndexWhere(tabs, (t: Tab) => t.id == id)
  }

  /** `getTab` (renderer.js:944-946): the tab with that id, if listed. */
  function GetTab(r: Registry, id: TabId): (t: Option<Tab>)
    ensures t.Some? <==> Listed(r.tabs, id)
    ensures t.Some? ==> t.value.id == id && t.value in r.tabs
  {
    match FindTab(r.tabs, id)
    case Some(i) => Some(r.tabs[i])
    case None => None
  }

  /** Ids are strictly increasing along the tab strip, hence unique. */
  predicate IdsIncreasing(tabs: seq<Tab>) {
    forall i, j :: 0 <= i < j < |tabs| ==> tabs[i].id < tabs[j].id
  }

  /** Every listed id was handed out before the counter reached `n`. */
  predicate IdsBelow(tabs: seq<Tab>, n: nat) {
    forall i :: 0 <= i < |tabs| ==> tabs[i].id < n
  }

  /** The registry invariant: never empty, the active id names a listed tab,
      ids are unique, increasing, and all below the counter. */
  predicate Valid(r: Registry) {
    && |r.tabs| > 0
    && r.active.Some?
    && Listed(r.tabs, r.active.value)
    && IdsIncreasing(r.tabs)
    && IdsBelow(r.tabs, r.counter)
  }

  /** A freshly created tab (renderer.js:759-765); its webview is not ready. */
  function FreshTab(id: TabId, url: string): Tab {
    Tab(id, url, NewTabTitle, "", false, false)
  }

  /** `createTab(url)` (renderer.js:755-781): appends a fresh tab with the next
      id and makes it active. */
  function CreateTab(r: Registry, url: string): (r': Registry)
    ensures |r'.tabs| == |r.tabs| + 1 && r'.tabs[..|r.tabs|] == r.tabs
    ensures r'.tabs[|r.tabs|] == FreshTab(r.counter, url)
    ensures r'.active == Some(r.counter) && r'.counter == r.counter + 1
    ensures IdsBelow(r.tabs, r.counter) ==> !Listed(r.tabs, r.counter)
    ensures IdsIncreasing(r.tabs) && IdsBelow(r.tabs, r.counter) ==> Valid(r')
    ensures forall j :: Listed(r'.tabs, j) <==> Listed(r.tabs, j) || j == r.counter
  {
    var r' := Registry(r.tabs + [FreshTab(r.counter, url)], Some(r.counter), r.counter + 1);
    assert r'.tabs[|r.tabs|].id == r.counter;
    assert forall k :: 0 <= k < |r.tabs| ==> r'.tabs[k] == r.tabs[k];
    r'
  }

  /** `init` creates the first tab on the empty registry (renderer.js:113-128). */
  function Init(homeUrl: string): (r: Registry)
    ensures Valid(r)
    ensures |r.tabs| == 1 && r.tabs[0] == FreshTab(0, homeUrl) && r.active == Some(0)
  {
    CreateTab(Empty, homeUrl)
  }

  /** `switchTab(id)` (renderer.js:894-895): the source sets the active id
      without checking that the tab exists; every caller passes a listed id. */
  function SwitchTab(r: Registry, id: TabId): (r': Registry)
    ensures r'.tabs == r.tabs && r'.counter == r.counter
    ensures r'.active == Some(id)
    ensures Valid(r) && Listed(r.tabs, id) ==> Valid(r')
  {
    r.(active := Some(id))
  }

  /** `closeTab(id)` (renderer.js:917-941). */
  function CloseTab(r: Registry, id: TabId, homeUrl: string): (r': Registry)
    // unknown id: nothing changes
    ensures !Listed(r.tabs, id) ==> r' == r
    // closing a background tab removes just that tab
    ensures Listed(r.tabs, id) && r.active != Some(id) ==>
      && r'.active == r.active && r'.counter == r.counter
      && |r'.tabs| == |r.tabs| - 1 && IsSubseq(r'.tabs, r.tabs)
      && (forall t :: t in r.tabs && t.id != id ==> t in r'.tabs)
    // closing the active tab selects its left neighbour, or its right one
    ensures Listed(r.tabs, id) && r.active == Some(id) && |r.tabs| > 1 ==>
      && (var i := FindTab(r.tabs, id).value;
          r'.active == Some(if i > 0 then r.tabs[i - 1].id else r.tabs[1].id))
      && r'.counter == r.counter
      && |r'.tabs| == |r.tabs| - 1 && IsSubseq(r'.tabs, r.tabs)
      && (forall t :: t in r.tabs && t.id != id ==> t in r'.tabs)
    // closing the only tab leaves exactly one fresh, active tab
    ensures Listed(r.tabs, id) && r.active == Some(id) && |r.tabs| == 1 ==>
      && r'.tabs == [FreshTab(r.counter, homeUrl)]
      && r'.active == Some(r.counter) && r'.counter == r.counter + 1
    ensures Valid(r) ==> Valid(r') && !Listed(r'.tabs, id)
    ensures r'.counter >= r.counter
    ensures forall j :: Listed(r'.tabs, j) ==> Listed(r.tabs, j) || j == r.counter
  {
    match FindTab(r.tabs, id)
    case None => r
    case Some(i) =>
      var rest := RemoveAt(r.tabs, i);
      RemoveKeepsOthers(r.tabs, i);
      if r.active == Some(id) then
        if |rest| > 0 then
          var next := rest[if i > 0 then i - 1 else 0];
          Registry(rest, Some(next.id), r.counter)
        else
          CreateTab(Registry(rest, r.active, r.counter), homeUrl)
      else
        Registry(rest, r.active, r.counter)
  }

  /** What `splice(i, 1)` keeps: everything else, in order, with unique ids
      kept unique and increasing, and no copy of the removed id. */
  lemma RemoveKeepsOthers(tabs: seq<Tab>, i: nat)
    requires i < |tabs|
    ensures IsSubseq(RemoveAt(tabs, i), tabs)
    ensures forall t :: t in tabs && t.id != tabs[i].id ==> t in RemoveAt(tabs, i)
    ensures forall n: nat :: IdsBelow(tabs, n) ==> IdsBelow(RemoveAt(tabs, i), n)
    ensures IdsIncreasing(tabs) ==> IdsIncreasing(RemoveAt(tabs, i))
    ensures IdsIncreasing(tabs) ==> !Listed(RemoveAt(tabs, i), tabs[i].id)
    ensures forall j :: Listed(RemoveAt(tabs, i), j) ==> Listed(tabs, j)
    ensures forall j :: Listed(tabs, j) && j != tabs[i].id ==> Listed(RemoveAt(tabs, i), j)
  {
    RemoveAtIsSubseq(tabs, i);
    RemoveKeepsMembers(tabs, i);
    RemoveKeepsListed(tabs, i);
    if IdsIncreasing(tabs) {
      RemoveKeepsIncreasing(tabs, i);
    }
  }

  lemma RemoveKeepsMembers(tabs: seq<Tab>, i: nat)
    requires i < |tabs|
    ensures forall t :: t in tabs && t.id != tabs[i].id ==> t in RemoveAt(tabs, i)
    ensures forall t :: t in RemoveAt(tabs, i) ==> t in tabs
  {
    var rest := RemoveAt(tabs, i);
    forall t | t in tabs && t.id != tabs[i].id
      ensures t in rest
    {
      var k :| 0 <= k < |tabs| && tabs[k] == t;
      if k < i { assert rest[k] == t; } else { assert rest[k - 1] == t; }
    }
    forall t | t in rest
      ensures t in tabs
    {
      var k :| 0 <= k < |rest| && rest[k] == t;
      if k < i { assert tabs[k] == t; } else { assert tabs[k + 1] == t; }
    }
  }

  lemma RemoveKeepsListed(tabs: seq<Tab>, i: nat)
    requires i < |tabs|
    ensures forall j :: Listed(RemoveAt(tabs, i), j) ==> Listed(tabs, j)
    ensures forall j :: Listed(tabs, j) && j != tabs[i].id ==> Listed(RemoveAt(tabs, i), j)
    ensures forall n: nat :: IdsBelow(tabs, n) ==> IdsBelow(RemoveAt(tabs, i), n)
  {
    var rest := RemoveAt(tabs, i);
    forall j | Listed(rest, j)
      ensures Listed(tabs, j)
    {
      var k :| 0 <= k < |rest| && rest[k].id == j;
      if k < i { assert tabs[k].id == j; } else { assert tabs[k + 1].id == j; }
    }
    forall j | Listed(tabs, j) && j != tabs[i].id
      ensures Listed(rest, j)
    {
      var k :| 0 <= k < |tabs| && tabs[k].id == j;
      if k < i { assert rest[k].id == j; } else { assert rest[k - 1].id == j; }
    }
  }

  lemma RemoveKeepsIncreasing(tabs: seq<Tab>, i: nat)
    requires i < |tabs| && IdsIncreasing(tabs)
    ensures IdsIncreasing(RemoveAt(tabs, i))
    ensures !Listed(RemoveAt(tabs, i), tabs[i].id)
  {
    var rest := RemoveAt(tabs, i);
    forall a, b | 0 <= a < b < |rest|
      ensures rest[a].id < rest[b].id
    {
      var a' := if a < i then a else a + 1;
      var b' := if b < i then b else b + 1;
      assert rest[a] == tabs[a'] && rest[b] == tabs[b'];
    }
    forall k | 0 <= k < |rest|
      ensures rest[k].id != tabs[i].id
    {
      var k' := if k < i then k else k + 1;
      assert rest[k] == tabs[k'];
    }
  }

  /** Every change that keeps each tab's id and position, and the active id and
      counter, keeps the registry's shape. */
  predicate SameLayout(r: Registry, r': Registry) {
    && r'.active == r.active && r'.counter == r.counter
    && |r'.tabs| == |r.tabs|
    && forall k :: 0 <= k < |r.tabs| ==> r'.tabs[k].id == r.tabs[k].id
  }

  /** `r'` differs from `r` at most in the fields of tab `id`; an unlisted id
      changes nothing. */
  ghost predicate OnlyTabChanged(r: Registry, r': Registry, id: TabId) {
    && SameLayout(r, r')
    && (forall j :: j != id ==> GetTab(r', j) == GetTab(r, j))
    && (!Listed(r.tabs, id) ==> r' == r)
  }

  lemma SameLayoutFacts(r: Registry, r': Registry)
    requires SameLayout(r, r')
    ensures Valid(r) <==> Valid(r')
    ensures forall j :: FindTab(r'.tabs, j) == FindTab(r.tabs, j)
  {
    forall j
      ensures FindTab(r'.tabs, j) == FindTab(r.tabs, j)
    {
      match FindTab(r.tabs, j)
      case Some(k) => IndexWhereIs(r'.tabs, (t: Tab) => t.id == j, k);
      case None =>
    }
    if Valid(r) {
      var k :| 0 <= k < |r.tabs| && r.tabs[k].id == r.active.value;
      assert r'.tabs[k].id == r'.active.value;
    }
    if Valid(r') {
      var k :| 0 <= k < |r'.tabs| && r'.tabs[k].id == r'.active.value;
      assert r.tabs[k].id == r.active.value;
    }
  }

  /** Replace tab `id` by `f` of it, when listed. Every projection below is
      one of these. */
  function Patch(r: Registry, id: TabId, f: Tab -> Tab): (r': Registry)
    requires forall t: Tab :: f(t).id == t.id
    ensures OnlyTabChanged(r, r', id)
    ensures Listed(r.tabs, id) ==> GetTab(r', id) == Some(f(GetTab(r, id).value))
    ensures Valid(r) <==> Valid(r')
  {
    match FindTab(r.tabs, id)
    case None => r
    case Some(i) =>
      var r' := r.(tabs := r.tabs[i := f(r.tabs[i])]);
      SameLayoutFacts(r, r');
      r'
  }

  /** `updateTabLoading` (renderer.js:959-966): starting a load clears the
      favicon, stopping one leaves it alone. */
  function SetLoading(r: Registry, id: TabId, loading: bool): (r': Registry)
    ensures OnlyTabChanged(r, r', id)
    ensures Valid(r) ==> Valid(r')
    ensures Listed(r.tabs, id) ==>
      var t, t' := GetTab(r, id).value, GetTab(r', id).value;
      && t'.loading == loading
      && t'.favicon == (if loading then "" else t.favicon)
      && t'.url == t.url && t'.title == t.title && t'.domReady == t.domReady
  {
    Patch(r, id, (t: Tab) => t.(loading := loading, favicon := if loading then "" else t.favicon))
  }

  /** `updateTabTitle` (renderer.js:980-982): an empty title shows as
      "Untitled", so a tab's title is never set to the empty string. */
  function SetTitle(r: Registry, id: TabId, title: string): (r': Registry)
    ensures OnlyTabChanged(r, r', id)
    ensures Valid(r) ==> Valid(r')
    ensures Listed(r.tabs, id) ==>
      var t, t' := GetTab(r, id).value, GetTab(r', id).value;
      && t'.title != ""
      && (title != "" ==> t'.title == title)
      && (title == "" ==> t'.title == UntitledTitle)
      && t' == t.(title := t'.title)
  {
    Patch(r, id, (t: Tab) => t.(title := if title != "" then title else UntitledTitle))
  }

  /** `updateTabFavicon` (renderer.js:1111-1113). */
  function SetFavicon(r: Registry, id: TabId, favicon: string): (r': Registry)
    ensures OnlyTabChanged(r, r', id)
    ensures Valid(r) ==> Valid(r')
    ensures Listed(r.tabs, id) ==> GetTab(r', id) == Some(GetTab(r, id).value.(favicon := favicon))
  {
    Patch(r, id, (t: Tab) => t.(favicon := favicon))
  }

  predicate IsWebUrl(url: string) {
    StartsWith(url, "http://") || StartsWith(url, "https://")
  }

  /** `requestFallbackFavicon` (renderer.js:1145-1157). `origin` is what
      `new URL(url).origin` yields, `None` when parsing throws. */
  function RequestFallbackFavicon(r: Registry, id: TabId, url: string, origin: Option<string>): (r': Registry)
    ensures OnlyTabChanged(r, r', id)
    ensures Valid(r) ==> Valid(r')
    // never overwrites a favicon, never acts on a non-web URL
    ensures !Listed(r.tabs, id) || GetTab(r, id).value.favicon != "" ==> r' == r
    ensures !IsWebUrl(url) || origin.None? ==> r' == r
    ensures Listed(r.tabs, id) && GetTab(r, id).value.favicon == "" && IsWebUrl(url) && origin.Some? ==>
      GetTab(r', id) == Some(GetTab(r, id).value.(favicon := origin.value + "/favicon.ico"))
  {
    var tab := GetTab(r, id);
    if tab.None? || tab.value.favicon != "" then r
    else if !IsWebUrl(url) then r
    else match origin
      case None => r
      case Some(o) => SetFavicon(r, id, o + "/favicon.ico")
  }

  /** `normalizeDisplayUrl` (renderer.js:1171-1181). The two prefixes are the
      file URLs of the bundled settings and home pages, "" while not yet
      computed. */
  function NormalizeDisplayUrl(url: string, settingsPrefix: string, homePrefix: string): (d: string)
    ensures d == url || d == SettingsDisplayUrl || d == HomeDisplayUrl
    ensures settingsPrefix != "" && StartsWith(url, settingsPrefix) ==> d == SettingsDisplayUrl
    ensures !(settingsPrefix != "" && StartsWith(url, settingsPrefix)) && homePrefix != "" && StartsWith(url, homePrefix) ==>
      d == HomeDisplayUrl
    ensures !(settingsPrefix != "" && StartsWith(url, settingsPrefix)) && !(homePrefix != "" && StartsWith(url, homePrefix)) ==>
      d == url
  {
    if url == "" then url
    else if settingsPrefix != "" && StartsWith(url, settingsPrefix) then SettingsDisplayUrl
    else if homePrefix != "" && StartsWith(url, homePrefix) then HomeDisplayUrl
    else url
  }

  /** `updateTabUrl` (renderer.js:1160-1164): stores the display form. */
  function SetUrl(r: Registry, id: TabId, url: string, settingsPrefix: string, homePrefix: string): (r': Registry)
    ensures OnlyTabChanged(r, r', id)
    ensures Valid(r) ==> Valid(r')
    ensures Listed(r.tabs, id) ==>
      GetTab(r', id) == Some(GetTab(r, id).value.(url := NormalizeDisplayUrl(url, settingsPrefix, homePrefix)))
  {
    var display := NormalizeDisplayUrl(url, settingsPrefix, homePrefix);
    Patch(r, id, (t: Tab) => t.(url := display))
  }

  /** The webview's `dom-ready` listener (renderer.js:823-824). */
  function MarkDomReady(r: Registry, id: TabId): (r': Registry)
    ensures OnlyTabChanged(r, r', id)
    ensures Valid(r) ==> Valid(r')
    ensures Listed(r.tabs, id) ==> GetTab(r', id) == Some(GetTab(r, id).value.(domReady := true))
  {
    Patch(r, id, (t: Tab) => t.(domReady := true))
  }

  /** The user's tab commands. A tab's sidebar element exists exactly while
      the tab is listed, so `Select` reaches `switchTab` only for listed ids. */
  datatype TabCommand =
    | Open(url: string)                   // new-tab button, Ctrl+T, a page's new-window request
    | Select(id: TabId)                   // click on a tab's sidebar element (renderer.js:809)
    | Close(id: TabId, homeUrl: string)   // the tab's close button (renderer.js:800-803)
    | CloseActive(homeUrl: string)        // Ctrl+W (renderer.js:1307-1312)
    | SelectNth(key: nat)                 // Ctrl+1 ... Ctrl+9 (renderer.js:1340-1346)

  function Apply(r: Registry, c: TabCommand): (r': Registry)
    ensures Valid(r) ==> Valid(r')
    ensures r'.counter >= r.counter
    // an id that was handed out and closed is never listed again
    ensures forall j :: Listed(r'.tabs, j) ==> Listed(r.tabs, j) || r.counter <= j
  {
    match c
    case Open(url) => CreateTab(r, url)
    case Select(id) => if Listed(r.tabs, id) then SwitchTab(r, id) else r
    case Close(id, homeUrl) => CloseTab(r, id, homeUrl)
    case CloseActive(homeUrl) =>
      if r.active.Some? then CloseTab(r, r.active.value, homeUrl) else r
    case SelectNth(key) =>
      if 1 <= key <= 9 && key - 1 < |r.tabs| then SwitchTab(r, r.tabs[key - 1].id) else r
  }

  /** Any sequence of tab commands from a valid registry. */
  function Run(r: Registry, cs: seq<TabCommand>): (r': Registry)
    ensures Valid(r) ==> Valid(r')
    ensures r'.counter >= r.counter
    ensures forall j :: Listed(r'.tabs, j) ==> Listed(r.tabs, j) || r.counter <= j
    decreases |cs|
  {
    if |cs| == 0 then r else Run(Apply(r, cs[0]), cs[1..])
  }

  /** Starting from `init`'s single tab, every sequence of commands keeps the
      registry non-empty with exactly one tab carrying the active id. */
  lemma SessionAlwaysHasOneActiveTab(homeUrl: string, cs: seq<TabCommand>)
    ensures var r := Run(Init(homeUrl), cs);
      && |r.tabs| > 0 && r.active.Some?
      && (exists i :: 0 <= i < |r.tabs| && r.tabs[i].id == r.active.value)
      && (forall i, j ::
            (0 <= i < |r.tabs| && 0 <= j < |r.tabs| && r.tabs[i].id == r.active.value && r.tabs[j].id == r.active.value)
            ==> i == j)
  {
    var r := Run(Init(homeUrl), cs);
    assert Valid(r);
  }
}
